=== FILE: README.md ===
# ClasificadorV2 core, modelled in Dafny

ClasificadorV2 is a photo and video organiser. A FastAPI backend stores uploads, makes thumbnails, reads EXIF and video metadata, and keeps one row per file in SQLite. A React frontend lists, filters and deletes those files and shows their places and event types. This project models the statable logic under that plumbing, as pure Dafny functions over immutable data:

- Frontend resolvers:
  - the reverse-geocoding normaliser (`LocationService`);
  - the two event-type translators (`TranslationService`, `ApiClient`);
  - the media URL and the stub coordinate formatter (`ApiClient`);
  - the search filter, the optimistic delete and the view-mode guard of the gallery (`GalleryApp`).
- Upload validation and naming:
  - MIME allow-list classification;
  - the collision-free file name loop (`FileValidator`).
- Media processing (`MediaProcessor`):
  - thumbnail naming and MIME dispatch;
  - the EXIF orientation table;
  - video target frame and resize arithmetic;
  - degrees/minutes/seconds conversion with the hemisphere sign;
  - metadata extraction.
- The media store (`MediaStore`) and its HTTP endpoints (`MediaApi`).
- The AI-model setting endpoints (`ConfigApi`).
- The exception hierarchy and its handlers (`Errors`).
- The settings' derived paths (`Settings`) and the setup script's path rewrite (`SetupEnvironment`).

Supporting modules:

- `Paths` models the part of `pathlib.PurePosixPath` the backend uses.
- `Text` covers ASCII/Latin-1 lower-casing, substring search, decimal rendering and splitting.
- `JsObject` covers the JavaScript property lookup the translators rely on.
- `Seqs` covers order-preserving filtering.
- `MediaModel` holds the row and request shapes of `models/media.py` and `schemas/media.py`.

How the model stands in for the outside world:

- **The database.** The SQLite table is a sequence of rows in rowid order. `MediaStore.ToMap` abstracts it to `map<int, Media>`, and every store contract is stated on that map. A new id is one more than the largest (1 in an empty table), which is SQLite's rowid rule without `AUTOINCREMENT`, so the id of a deleted last row can be handed out again.
- **Inputs.** The network, the file system, the image libraries, the MIME sniffer and the clock are all inputs, passed as parameters:
  - the fetch outcome and `toFixed(4)` (an uninterpreted `fmt4`);
  - the sniffed MIME type and the set of existing paths;
  - whether a thumbnail already exists or rendering fails;
  - the EXIF tags, image size and video properties;
  - the date parser;
  - the classifier's `(event, confidence)`;
  - the outcome of saving the configuration;
  - how the final commit of an upload ends: committed, refresh failed, flush failed, or the COMMIT statement failed.
- **Numbers.** Floating point is modelled with reals.

## Model

| member | source | states |
|---|---|---|
| LocationService.LocationName | frontend/src/services/locationService.ts:3-36 | A failed request, a non-ok response or a payload without `address` gives the coordinate fallback. Otherwise: `locality, country` when both are truthy; the country alone when only it is truthy; the coordinates whenever the country is falsy. |
| LocationService.LocalityIsFirstTruthy | frontend/src/services/locationService.ts:16-20 | The locality is truthy iff one of city, town, village, municipality, suburb is, and it is the first truthy one in that order. |
| LocationService.CityWithoutCountryShowsCoordinates | frontend/src/services/locationService.ts:25-30 | A city without a country still yields the coordinate string. |
| LocationService.RegionIsIgnored | frontend/src/services/locationService.ts:16-28 | An address with only a country (no state or region is consulted) shows just the country. |
| LocationService.TownBeforeSuburb | frontend/src/services/locationService.ts:16-26 | An empty city is skipped, the town wins over the later suburb, and the result is `town, country`. |
| TranslationService.TranslateEventType | frontend/src/services/translationService.ts:47-52 | Null or empty gives `Sin clasificar`. A lower-cased key of the 35-entry table gives its value. Anything else is returned unchanged, not lower-cased. |
| TranslationService.CaseInsensitive | frontend/src/services/translationService.ts:50-51 | When `lower(s)` is a key, translating `s` equals translating `lower(s)`. |
| TranslationService.Examples | frontend/src/services/translationService.ts:4-40 | `wedding` and `WEDDING` give `Boda`, `other` gives `Otro`, and an unknown `Beach Day` passes through. |
| TranslationService.NotInjective | frontend/src/services/translationService.ts:10-37 | `reunion`, `meeting` and `gathering` all map to `Reunión`. |
| TranslationService.TranslationsStable | frontend/src/services/translationService.ts:4-40 | No translated value lower-cases to a key with a different value. |
| TranslationService.TranslateIdempotent | frontend/src/services/translationService.ts:47-52 | Translating a translation gives it back, for every input. |
| TranslationService.PrototypeKeyEscapes | frontend/src/services/translationService.ts:51 | As written, `Constructor` and `__proto__` find inherited members of `Object.prototype`, not a string. |
| TranslationService.AsWrittenAgrees | frontend/src/services/translationService.ts:47-52 | Away from the prototype's member names, the literal object lookup returns the string the corrected translator gives. |
| TranslationService.TranslateAsWritten | frontend/src/services/translationService.ts:47-52 | As written, a label that lowers to an inherited member name and no table key returns that member. Any other label gives the string of the own-entries translator. |
| JsObject.Get | frontend/src/services/translationService.ts:51 | A property read gives the own value when there is one, else the inherited prototype member of that name, else `undefined`. |
| ApiClient.GetMediaUrl | frontend/src/services/api.ts:128-131 | The empty path gives `''`. Any other path gives `MEDIA_BASE_URL` followed by exactly the path. |
| ApiClient.MediaUrlRoundTrip | frontend/src/services/api.ts:130 | Dropping the base prefix recovers the path, so distinct non-empty paths give distinct URLs. |
| ApiClient.LocationStub | frontend/src/services/api.ts:171-184 | A missing or zero coordinate gives `Ubicación desconocida`. Otherwise the two `fmt4` strings joined by `, `. |
| ApiClient.StubMatchesResolverFallback | frontend/src/services/api.ts:175-179 | For non-zero coordinates the stub equals the geocoder's coordinate fallback; a zero latitude is reported unknown. |
| ApiClient.LegacyTranslateEventType | frontend/src/services/api.ts:194-213 | Falsy input gives `Desconocido`. A lower-cased key of the 12-entry table gives its value. Unknown input passes through unchanged. |
| ApiClient.LegacyPrototypeKeyEscapes | frontend/src/services/api.ts:212 | As written, `CONSTRUCTOR` returns the inherited `Object.prototype.constructor`. |
| ApiClient.LegacyAsWrittenAgrees | frontend/src/services/api.ts:194-213 | Away from prototype member names, the literal lookup agrees with the corrected translator. |
| ApiClient.LegacyTranslateAsWritten | frontend/src/services/api.ts:194-213 | As written, a label that lowers to an inherited member name and no table key returns that member. Any other label gives the string of the own-entries translator. |
| ApiClient.LegacyExamples | frontend/src/services/api.ts:197-212 | `Sport` gives `Deporte`; `sports` and `other` are not keys of this table and pass through. |
| GalleryApp.FilteredMedia | frontend/src/App.tsx:190-194 | The result is an order-preserving subsequence of the list. It holds exactly the items whose lower-cased file name or non-empty event type contains the lower-cased query, or all items when the query is empty. Its length is the number of items shown. |
| GalleryApp.EmptyQueryShowsAll | frontend/src/App.tsx:190-191 | An empty query returns the whole list. |
| GalleryApp.AfterDelete | frontend/src/App.tsx:163-165 | An undefined cache gives `[]`. Otherwise an order-preserving subsequence that keeps every item whose id differs from the deleted one and no other. |
| GalleryApp.DeleteThenFilter | frontend/src/App.tsx:163-194 | Filtering after an optimistic delete equals deleting from the filtered list. |
| GalleryApp.NextViewMode | frontend/src/App.tsx:230-234 | A null new mode keeps the current one; any other value becomes the mode. |
| GalleryApp.ViewModeSettles | frontend/src/App.tsx:230-234 | Applying the same request twice changes nothing more. The resulting mode is either the current one or the requested one. |
| FileValidator.MimeListsDisjoint | backend/app/utils/file_validator.py:16-29 | Four image types, three video types, seven allowed in all, and no type in both lists. |
| FileValidator.ValidateFile | backend/app/utils/file_validator.py:40-79 | An empty first chunk gives 400 `El archivo está vacío` before any MIME check. A type outside the allowed set gives 400 naming it. Otherwise it accepts, returning the type and `image` iff the type is an image type. |
| FileValidator.ClassifiedAsVideo | backend/app/utils/file_validator.py:77 | An accepted file is classified `video` iff its type is on the video list. |
| FileValidator.CandidateInjective | backend/app/utils/file_validator.py:110-111 | Different counters give different candidate paths. |
| FileValidator.CandidateInDestination | backend/app/utils/file_validator.py:105-111 | Candidate `k` sits directly in the destination, named `stem_k.suffix`. |
| FileValidator.FirstFree | backend/app/utils/file_validator.py:107-112 | Over a finite set of taken names, the loop ends at the first counter `k >= 1` whose name is free. Every counter before it is taken. |
| FileValidator.SaveTarget | backend/app/utils/file_validator.py:101-112 | The target never exists already. It is `destination / filename` when that is free. Otherwise it is `stem_k.suffix` for the smallest `k >= 1` that is free. |
| FileValidator.SaveUploadFile | backend/app/utils/file_validator.py:96-126 | A failure while saving gives 500 `Error al guardar el archivo: ...`. Otherwise it returns a path that did not exist: the plain name when that one is free, else `stem_k.suffix` for the smallest `k >= 1` not taken. |
| MediaProcessor.ThumbnailNameFromStem | backend/app/services/media_processor.py:26-28 | The thumbnail name is `thumb_` plus the stem of the original's name plus `.jpg`; two files with the same stem share it. |
| MediaProcessor.ThumbnailName | backend/app/services/media_processor.py:26-28 | The thumbnail name is a single path component. `pathlib` reads it back with suffix `.jpg` and stem `thumb_` plus the original's stem. |
| MediaProcessor.ThumbnailPath | backend/app/services/media_processor.py:16-36 | The thumbnail file lies directly in the thumbnails directory, under the thumbnail name. |
| MediaProcessor.CreateImageThumbnail | backend/app/services/media_processor.py:74-133 | The result is `/thumbnails/<name>` iff the directory could be prepared and the thumbnail already existed or rendering succeeded. Otherwise `None`. |
| MediaProcessor.CreateVideoThumbnail | backend/app/services/media_processor.py:135-188 | The result is `/thumbnails/<name>` iff the thumbnail existed, or saving succeeded after a frame was read and resized. The resize needs a defined size with both sides positive, since `cv2.resize` raises on a zero side. Otherwise `None`. |
| MediaProcessor.ThinFrameFails | backend/app/services/media_processor.py:160-170 | For a frame wider than tall, the resize is refused exactly when height times the thumbnail size is below the width. Such a frame then gives no thumbnail. |
| MediaProcessor.CreateThumbnail | backend/app/services/media_processor.py:38-72 | Dispatches `image/` and `video/` types to their makers and gives `None` for anything else. Any path it returns is the web path of the thumbnail name. |
| MediaProcessor.WebPathServesThumbnailFile | backend/app/services/media_processor.py:26-36 | Any web path a thumbnail call returns names the file `_get_thumbnail_path` places directly in the thumbnails directory. |
| MediaProcessor.TwoMoves | backend/app/services/media_processor.py:99-103 | Applying two transposes in sequence moves each side by the first and then by the second. |
| MediaProcessor.OrientationCorrects | backend/app/services/media_processor.py:91-105 | For EXIF orientations 1-8 the chosen transposes bring the stored image's sides to where the tag says they belong. An absent or out-of-range tag applies none. |
| MediaProcessor.OrientationTransposes | backend/app/services/media_processor.py:91-105 | Transposes are applied exactly for tags 2-8, two of them for 5 and 7. A flip is among them exactly for the mirrored orientations 2, 4, 5 and 7. |
| MediaProcessor.TargetFrame | backend/app/services/media_processor.py:150-153 | No seek when there are no frames. Otherwise the target lies in `[0, total-1]` and is the floor of a quarter of the total. |
| MediaProcessor.TargetIsQuarter | backend/app/services/media_processor.py:152 | For a positive frame count the target is `total / 4`. |
| MediaProcessor.ResizeDims | backend/app/services/media_processor.py:160-168 | The longer side (width when width > height, else height) becomes the maximum side. The other is the floor of the proportional size and never exceeds it. A 0x0 frame divides by zero. |
| MediaProcessor.ScaledSide | backend/app/services/media_processor.py:165-168 | The scaled side is the floor of `short * maxSide / long`, between 0 and `maxSide`. |
| MediaProcessor.RatioValue | backend/app/services/media_processor.py:259-261 | A ratio has a value iff its denominator is non-zero, and value times denominator is the numerator. |
| MediaProcessor.ToDegrees | backend/app/services/media_processor.py:257-262 | Degrees are `d + m/60 + s/3600` over the three ratios, undefined when a denominator is zero. |
| MediaProcessor.DegreesWithinDegree | backend/app/services/media_processor.py:257-262 | With whole degrees, minutes in 0..59 and seconds in [0, 60), the result lies in `[d, d+1)`. |
| MediaProcessor.Hemisphere | backend/app/services/media_processor.py:216-219 | An empty reference fails, as indexing it raises. Otherwise the magnitude is negated iff the reference starts with the hemisphere letter. |
| MediaProcessor.GpsCoordinates | backend/app/services/media_processor.py:213-221 | No coordinates unless both tags are present. With both present, it is an error exactly when a degree value has a zero denominator or a reference is empty. Otherwise both degrees, each signed by its reference. |
| MediaProcessor.HemisphereSign | backend/app/services/media_processor.py:216-219 | For positive magnitudes, the latitude is negative iff its reference starts with `S`, and the longitude iff its reference starts with `W`. |
| MediaProcessor.ImageMetadata | backend/app/services/media_processor.py:202-234 | Nothing when the file cannot be read. Otherwise the size, with latitude and longitude set exactly when the coordinates give a position, to that position. A creation date exactly when the tag parsed and the coordinates raised nothing. Never a duration. |
| MediaProcessor.ValidGpsRecorded | backend/app/services/media_processor.py:213-221 | A readable image whose GPS block has non-zero denominators and non-empty references gets its degrees recorded, negated for `S` and `W`. |
| MediaProcessor.BadCoordinateKeepsOnlySize | backend/app/services/media_processor.py:208-221 | When converting the coordinates raises, only width and height survive. |
| MediaProcessor.VideoMetadata | backend/app/services/media_processor.py:236-255 | Width, height and `frames / fps` when fps is positive, else a null duration. Nothing when reading fails. Never coordinates or a date. |
| MediaProcessor.MetadataKinds | backend/app/services/media_processor.py:190-200 | Image types never get a duration; other types never get a position or a date. A video read at a positive rate has a duration that times the rate gives back its frame count. |
| MediaProcessor.ExtractMetadata | backend/app/services/media_processor.py:190-200 | Image types get the image metadata, video types the video metadata, anything else none. |
| MediaModel.Patched | backend/app/crud/media.py:29-31 | An unset field keeps its value; a set field, even set to null, takes the new one. |
| MediaStore.ToMapKeys | backend/app/crud/media.py:6-7 | An id is in the store iff some row carries it. |
| MediaStore.Get | backend/app/crud/media.py:6-7 | The row with that id, or `None` iff no row has it. |
| MediaStore.GetAll | backend/app/crud/media.py:9-10 | At most `limit` rows when the limit is non-negative; they are the rows from offset `skip` on (a negative offset counts as 0, a negative limit means no limit). |
| MediaStore.PagesConcatenate | backend/app/crud/media.py:9-10 | Two consecutive pages concatenate to the page covering both. |
| MediaStore.WholeTable | backend/app/crud/media.py:9-10 | Without a limit from offset 0, or any negative offset, the whole table is listed. |
| MediaStore.NextId | backend/app/crud/media.py:19-21 | The new id is positive and larger than every stored id. It is one more than the last (largest) id, or 1 in an empty table. |
| MediaStore.Create | backend/app/crud/media.py:12-22 | A fresh id maps to a row with the given name, path, type and size and every other column null; all other rows are unchanged. |
| MediaStore.ApplyUpdate | backend/app/crud/media.py:29-31 | Only the explicitly set fields among event type, latitude and longitude change, to the values given (null included). |
| MediaStore.UpdateIdempotent | backend/app/crud/media.py:29-31 | An empty update changes nothing, and applying an update twice equals applying it once. |
| MediaStore.Update | backend/app/crud/media.py:24-35 | An absent id gives `None` and leaves the store alone. Otherwise the updated row is returned, and the store differs only at that id. |
| MediaStore.Commit | backend/app/crud/media.py:33-34 | Writing back a modified row replaces it at its id and changes nothing else. |
| MediaStore.Delete | backend/app/crud/media.py:37-44 | Returns true iff the id was present. Afterwards the store is the old one without that id, and an absent id changes nothing. |
| MediaStore.DeleteThenGet | backend/app/crud/media.py:37-44 | After a delete the id cannot be read. When the deleted row had the largest id, the next id is at most that id, so it can be handed out again. |
| MediaApi.UploadMedia | backend/app/api/v1/media.py:16-69 | A type that is neither `image/` nor `video/` gives 400 with the store untouched. Otherwise the answer is the created row (name, type, size, `uploads/filename` path) after processing. The event is predicted only for images. When the flush of the final commit fails, the session is rolled back and answering with the expired row raises, so the client gets 500 while the store keeps the created row. When only the COMMIT statement fails, the processed row is answered and the store keeps the created row. When only the refresh fails, the processed row is both stored and answered. |
| MediaApi.Processed | backend/app/api/v1/media.py:46-61 | Processing keeps id, name, path, type and size. It sets `/thumbnails/thumb_<stem>.jpg` when a thumbnail was made, else keeps the old one. Each metadata column takes the extracted value when the key was extracted, else keeps its own. The predicted event is set only for images. |
| MediaApi.ApplyMetadata | backend/app/api/v1/media.py:53-55 | Exactly the metadata keys present are written; every other column keeps its value. |
| MediaApi.ListDefaults | backend/app/api/v1/media.py:71-77 | Without parameters the list is the first `min(100, n)` rows. |
| MediaApi.ListMedia | backend/app/api/v1/media.py:71-77 | The page is the rows from `skip` on (0 when absent or negative), in order. It has at most `limit` rows (100 when absent), and fewer only when the table runs out. |
| MediaApi.GetMedia | backend/app/api/v1/media.py:79-87 | The stored row, or 404 `Media not found` iff the id is absent. |
| MediaApi.PatchMedia | backend/app/api/v1/media.py:89-98 | An absent id gives 404 with the store unchanged; otherwise the updated row, stored at its id. |
| MediaApi.DeleteMedia | backend/app/api/v1/media.py:100-108 | An absent id gives 404 with the store unchanged. Otherwise `Media deleted successfully`, with the id gone and nothing else changed. |
| MediaApi.DeleteThenNotFound | backend/app/api/v1/media.py:79-108 | After a delete, reading or deleting the same id gives 404. |
| MediaApi.PatchThenGet | backend/app/api/v1/media.py:79-98 | A read after a patch answers what the patch answered. |
| MediaApi.FlushFailureKeepsCreatedRow | backend/app/api/v1/media.py:63-69 | After a failed flush the answer is a 500, yet the created row, with no thumbnail and no event, can still be read back by its id. |
| MediaApi.UploadThenGet | backend/app/api/v1/media.py:16-87 | After an upload whose commit succeeded, reading its id gives the row the upload returned. |
| ConfigApi.GetConfig | backend/app/api/v1/config.py:18-27 | Reports the current model. When the settings declare no model, the attribute error becomes a 500 under the registered general handler. |
| ConfigApi.SetAiModel | backend/app/api/v1/config.py:29-55 | An invalid model gives 400 `Modelo de IA no válido` with the state unchanged. A valid one becomes the state and is reported, with a message chosen by the save result alone. A save raising `ValueError` gives 400 with its text; any other exception gives 500 `Error al cambiar el modelo de IA: ...`. |
| ConfigApi.PostAiModel | backend/app/api/v1/config.py:11-12 | On an application that registers the handlers of `core/errors.py`, a model outside the `Literal` type gets the validation handler's 422 before the endpoint runs. Otherwise the endpoint's answer or its error's response. |
| ConfigApi.InvalidModelRejected | backend/app/api/v1/config.py:34-35 | An invalid model leaves the setting unchanged. It is answered 422 through the endpoint and 400 by the handler itself. |
| ConfigApi.GetAfterSet | backend/app/api/v1/config.py:21-50 | Once a model is set, a get reports it, whether or not saving worked. |
| ConfigApi.MessageFromSaveOnly | backend/app/api/v1/config.py:43-46 | The response depends on the save result, not on the earlier state, and the two messages differ. |
| ConfigApi.SetTwice | backend/app/api/v1/config.py:38 | Setting the same model twice leaves the state as setting it once. |
| ConfigApi.ThreeModels | backend/app/api/v1/config.py:12 | The accepted models are exactly `clip`, `opencv_dnn` and `opencv_yolo`; the check is case-sensitive. |
| ConfigApi.AsWrittenRejectsEveryModel | backend/app/api/v1/config.py:38 | With the settings class as written, every accepted model is refused with 400 and reading the setting fails. |
| ConfigApi.DeclaredAcceptsEveryModel | backend/app/api/v1/config.py:38-51 | With `AI_MODEL` declared, every accepted model is stored and answered 200 unless saving raised. |
| ConfigApi.DeclaredStillFailsToSave | backend/app/api/v1/config.py:38-55 | With `AI_MODEL` declared but no `save_config_to_file`, every accepted model is stored in memory and then answered 500 `Error al cambiar el modelo de IA: ...`. |
| Errors.NewAppException | backend/app/core/errors.py:12-26 | The message defaults to `Se produjo un error interno` and the status to 500; the detail is kept. |
| Errors.NewSubclass | backend/app/core/errors.py:28-51 | Each subclass fixes its status and has its own default message. |
| Errors.SubclassStatuses | backend/app/core/errors.py:28-51 | Statuses 404/422/500/401/403 tell the subclasses apart. Only the database error shares 500 with the base class. All are error statuses. |
| Errors.AppHandler | backend/app/core/errors.py:53-62 | Answers with the exception's status and message, and its detail or `{}`. |
| Errors.ValidationHandler | backend/app/core/errors.py:64-74 | Always 422, with the fixed message and `detail = {"errors": errors}`. |
| Errors.ServerError | backend/app/core/errors.py:76-96 | Always 500, with the given message and `detail = {"error": text}`. |
| Errors.HttpHandler | backend/app/api/v1/media.py:86 | A raised `HTTPException` is answered with its status and `{"detail": detail}` and no message. |
| Errors.Handle | backend/app/core/errors.py:98-103 | Once the handlers are registered, each exception kind goes to its handler, and anything else to the general one. |
| Errors.HandledIsError | backend/app/core/errors.py:53-103 | Every handled exception gets a 4xx or 5xx status, given one on the application exceptions. |
| Errors.SubclassResponse | backend/app/core/errors.py:28-62 | A subclass raised with defaults answers its status and message with an empty detail. |
| Errors.DatabaseErrorsAlike | backend/app/core/errors.py:38-85 | A `DatabaseException` and a SQLAlchemy error share status and message but not detail. |
| Errors.Field | backend/app/core/errors.py:58-60 | A field found in a JSON object is one of its fields. |
| Settings.MaxThumbnailSide | backend/app/core/config.py:26 | The larger of the two thumbnail sides. |
| Settings.SqliteUrl | backend/app/core/config.py:15 | The URL starts with `sqlite:///`. |
| Settings.SqliteUrlInjective | backend/app/core/config.py:15 | Different storage directories give different database URLs. |
| Settings.Layout | backend/app/core/config.py:10-15 | Uploads and thumbnails are the `uploads` and `thumbnails` children of the storage directory. |
| Settings.Load | backend/app/core/config.py:10-15 | The derived directories and URL follow the effective storage directory. |
| Settings.LoadersAgreeByDefault | backend/app/core/config.py:10-15 | Without an override the class as written gives the derived layout. |
| Settings.OverrideDetachesLayout | backend/app/core/config.py:10-15 | As written, an overridden storage directory is not the parent of uploads or thumbnails and is not in the URL. |
| Settings.EffectiveStorage | backend/app/core/config.py:10 | The storage directory is a well-formed path, the default or the override. |
| Settings.LoadAsWritten | backend/app/core/config.py:5-30 | As written, an override changes the storage directory alone. Uploads, thumbnails and the URL stay those of `../storage`, and no processed directory is set. Everything else agrees with loading without an override. |
| SetupEnvironment.FixStoragePaths | scripts/setup_environment.py:120-175 | No settings gives False with nothing changed. No `PROCESSED_DIR` raises. A storage directory already equal to `project/storage` is left alone; otherwise it becomes that. |
| SetupEnvironment.FixThenFixAgain | scripts/setup_environment.py:149-165 | After a rewrite, uploads, thumbnails and processed are children of `project/storage` and the URL names it, and a second call changes nothing. |
| SetupEnvironment.AlreadyFixedIffSamePath | scripts/setup_environment.py:149-157 | The settings are untouched when the storage is already the project's, and rewritten to it otherwise. |
| SetupEnvironment.DirectoriesToCheck | scripts/setup_environment.py:196-202 | Five directories starting with storage and with processed fourth; no `PROCESSED_DIR` raises. |
| SetupEnvironment.EnsureDirectories | scripts/setup_environment.py:177-215 | No settings gives False. Otherwise true iff every checked directory exists or could be created. |
| SetupEnvironment.CheckedDirectoriesUnderProject | scripts/setup_environment.py:157-202 | After the rewrite the checked directories are the project storage, three children of it and a grandchild. |
| SetupEnvironment.LayoutDirectories | scripts/setup_environment.py:196-202 | For derived settings the checked directories are storage, three children and `models/opencv_dnn`. |
| Paths.Join | backend/app/core/config.py:11-12 | Joining keeps a path well formed. |
| Paths.JoinComponent | backend/app/core/config.py:11-12 | Joining a plain component gives a path whose name is that component and whose parent is the original path. |
| Paths.StemSuffix | backend/app/utils/file_validator.py:105-106 | Stem and suffix split a name in two. The suffix is empty or one dot-started piece without another dot. A non-empty name has a non-empty stem. |
| Paths.ParseToString | scripts/setup_environment.py:149 | Parsing a path's string form gives the path back, so string comparison is path comparison. |
| Text.Lower | frontend/src/services/translationService.ts:50 | Lower-casing keeps the length and maps each character. |
| Text.LowerIdempotent | frontend/src/App.tsx:192-193 | Lower-casing twice is lower-casing once. |
| Text.NatToStringInjective | backend/app/utils/file_validator.py:110 | Different counters render as different decimal strings. |
| Text.SplitJoin | backend/app/core/config.py:15 | Splitting a joined list at the separator gives the list back. |
| Seqs.Keep | frontend/src/App.tsx:190 | Filtering keeps order and keeps exactly the elements satisfying the predicate. |
| Seqs.KeepCommutes | frontend/src/App.tsx:163-194 | Two filters commute. |

## Left out

- Rendering, styling, timers and hooks of the React app; axios/fetch clients, the interceptor and the geocoding service's Nominatim calls. Network results are inputs.
- `toFixed(4)` is an uninterpreted `fmt4`. Floats are reals: no IEEE rounding in resize, degrees or duration.
- Pixel work: PIL/cv2 image I/O, RGBA compositing, colour conversion and JPEG quality. They appear only as the run outcomes `ImageRun`/`VideoRun`.
- `predict_event` (CLIP/torch): its `(event, confidence)` is an input; it returns `("unknown", 0.0)` on its own errors, so it cannot fail the upload.
- `magic.from_buffer`: the sniffed MIME type is an input; the allowed set's iteration order in the error text is the input `listing`.
- `save_config_to_file` is not defined in the settings class. Its outcome is the input `SaveOutcome`; the outcome as written, an `AttributeError`, is `ConfigApi.AsWrittenSave`.
- chmod, mkdir, prints and logging everywhere; timestamps `uploaded_at`/`updated_at` (clock).
- `healthcheck.py`, `main.py`, middlewares, logger, `conftest.py`, and every script but `setup_environment.py` (module loaders, stubs, database updater, YOLO test, `fix_config_paths.py`).
- The upload endpoint writes `uploads_dir / filename` directly and overwrites an existing file. It does not use the collision loop of `save_upload_file`, and the model follows it. The file-write exception in that endpoint (before the row is created) is not modelled.
- `MAX_FILE_SIZE` is declared but never enforced, and the settings' own type lists (three image, two video types) are narrower than the validator's sets; neither is used by the endpoints modelled.
- `Paths`: POSIX `//` (exactly two leading slashes kept by `pathlib`) is not modelled; paths with one or three-plus leading slashes behave as in `pathlib`.
- `Text.Lower`: lower-cases ASCII and the Latin-1 upper range only, not the full Unicode mapping of `toLowerCase`.
- MediaStore.GetAll: ids and the store order are SQLite rowid order; the query has no `ORDER BY`, so the order is the table scan's.
- LocationService.LocationName: no state or region field is read and no field is deduplicated; the locality chain stops at `suburb` (`locationService.ts:16-20`).
- ConfigApi.PostAiModel: models the endpoint on an application that mounts the config router and registers the handlers of `core/errors.py`. `backend/app/main.py:10,49` mounts only the media router and never calls `register_exception_handlers`; `api/v1/__init__.py:7`, which includes the config router, is not used by it. As shipped, the config routes are not reachable, and a validation error would get FastAPI's default `{"detail": [...]}` body.
- Errors.Handle: the routing of exceptions to the handlers of `core/errors.py:98-103` holds only where they are registered. `backend/app/main.py` registers none, so FastAPI's default handlers answer instead; those defaults are not modelled.
- MediaApi.UploadMedia: after a failed flush, the 500 is modelled only by its status and the text `Internal Server Error`, the plain-text body the server sends when no handler of the application catches the exception. `PendingRollbackError` and SQLAlchemy's expiry are not modelled; the outcome of the commit is an input.

## Findings

| source | as written | input that shows it | evidently intended | confidence | as-written member | corrected member |
|---|---|---|---|---|---|---|
| frontend/src/services/translationService.ts:51 | `eventTypeTranslations[normalizedType] \|\| eventType` reads a plain object, so inherited `Object.prototype` members are found | `"Constructor"` (or `"__proto__"`) returns the `Object` function or the prototype object instead of a string | only own keys of the table are translated; anything else passes through | high, not executed | TranslationService.PrototypeKeyEscapes | TranslationService.TranslateEventType |
| frontend/src/services/api.ts:212 | the older translator makes the same plain-object lookup | `"CONSTRUCTOR"` returns `Object` instead of a string | only own keys are translated | high, not executed | ApiClient.LegacyPrototypeKeyEscapes | ApiClient.LegacyTranslateEventType |
| backend/app/core/config.py:10-15 | `UPLOADS_DIR`, `THUMBNAILS_DIR` and `SQLITE_URL` are computed from the default `STORAGE_DIR` when the class body runs | environment `STORAGE_DIR=/data` gives uploads `../storage/uploads` and URL `sqlite:///../storage/db.sqlite3` | derived values follow the effective storage directory, as `backend/tests/test_config.py:32-33` expects | high, not executed | Settings.OverrideDetachesLayout | Settings.Load |
| backend/app/api/v1/config.py:38 | the settings class declares no `AI_MODEL`; pydantic refuses to set an undeclared field and reading it raises | `POST /ai-model {"model": "clip"}` answers 400 `"Settings" object has no field "AI_MODEL"`; `GET /` answers 500 | `AI_MODEL` declared (as `scripts/stubs.py:18` does) and `save_config_to_file` defined; declaring the field alone still answers 500, because `settings.save_config_to_file()` at line 41 raises `AttributeError` | medium, not executed | ConfigApi.AsWrittenRejectsEveryModel | ConfigApi.DeclaredAcceptsEveryModel |

A related gap: `fix_storage_paths` prints `settings.PROCESSED_DIR`, which the settings class does not declare, so it raises before rewriting. `SetupEnvironment.FixStoragePaths` returns `Err` in that case. Its properties are stated for settings that carry the directory.

=== FILE: api_client.dfy ===
/** The pure members of the older service object in `services/api.ts`: the
    media URL builder, the coordinate stub standing in for a geocoder, and
    the first event-type translator with its own 12-entry table. */
module ApiClient {
  import opened Wrappers
  import opened Text
  import JsObject
  import LocationService

  /** `API_CONFIG.MEDIA_BASE_URL` of `config/constants.ts`. */
  const MediaBaseUrl: string := "http://localhost:8000"

  /** `mediaService.getMediaUrl(path)`. */
  function GetMediaUrl(path: string): (r: string)
    ensures path == "" ==> r == ""
    ensures path != "" ==> StartsWith(r, MediaBaseUrl) && r[|MediaBaseUrl|..] == path
  {
    if path == "" then "" else MediaBaseUrl + path
  }

  /** Removing the base from a URL built for a non-empty path gives the path
      back, so two different paths never share a URL. */
  lemma MediaUrlRoundTrip(p: string, q: string)
    requires p != "" && q != ""
    ensures GetMediaUrl(p)[|MediaBaseUrl|..] == p
    ensures GetMediaUrl(p) == GetMediaUrl(q) ==> p == q
  {
  }

  /** The label for a missing coordinate. */
  const UnknownLocation: string := "Ubicación desconocida"

  /** JavaScript truthiness of an optional number. */
  predicate TruthyNumber(x: Option<real>) {
    x.Some? && x.value != 0.0
  }

  /** `locationService.getLocationNameFromCoords` of this file: no request is
      made; a null, undefined or zero coordinate gives the unknown label. */
  function LocationStub(latitude: Option<real>, longitude: Option<real>, fmt4: real -> string): (r: string)
    ensures !TruthyNumber(latitude) || !TruthyNumber(longitude) ==> r == UnknownLocation
    ensures TruthyNumber(latitude) && TruthyNumber(longitude) ==>
              r == fmt4(latitude.value) + ", " + fmt4(longitude.value)
  {
    if !TruthyNumber(latitude) || !TruthyNumber(longitude) then UnknownLocation
    else fmt4(latitude.value) + ", " + fmt4(longitude.value)
  }

  /** Where the stub answers with coordinates it gives exactly the fallback
      string of the real resolver; the equator and the prime meridian count
      as unknown. */
  lemma StubMatchesResolverFallback(lat: real, lon: real, fmt4: real -> string)
    ensures lat != 0.0 && lon != 0.0 ==>
              LocationStub(Some(lat), Some(lon), fmt4) == LocationService.Fallback(lat, lon, fmt4)
    ensures LocationStub(Some(0.0), Some(lon), fmt4) == UnknownLocation
  {
  }

  /** The `translations` record of `translationService.translateEventType`. */
  const LegacyTranslations: map<string, string> := map[
    "party" := "Fiesta",
    "graduation" := "Graduación",
    "wedding" := "Boda",
    "concert" := "Concierto",
    "sport" := "Deporte",
    "conference" := "Conferencia",
    "meeting" := "Reunión",
    "family" := "Familia",
    "travel" := "Viaje",
    "food" := "Comida",
    "nature" := "Naturaleza",
    "pet" := "Mascota"
  ]

  /** The label for a missing or empty event type. */
  const UnknownEvent: string := "Desconocido"

  function LegacyOwn(key: string): Option<string> {
    if key in LegacyTranslations then Some(LegacyTranslations[key]) else None
  }

  /** A label whose lowered form is no key of the older table but names
      an inherited member. */
  predicate LegacyReachesPrototype(eventType: Option<string>) {
    && eventType.Some? && eventType.value != ""
    && Lower(eventType.value) in JsObject.PrototypeMembers
    && Lower(eventType.value) !in LegacyTranslations
  }

  /** The older translator as written: like the newer one it reads an object
      literal with `[]`, so inherited members leak through. */
  function LegacyTranslateAsWritten(eventType: Option<string>): (r: JsObject.JsValue)
    ensures LegacyReachesPrototype(eventType) ==> r == JsObject.Inherited(Lower(eventType.value))
    ensures !LegacyReachesPrototype(eventType) ==> r == JsObject.Str(LegacyTranslateEventType(eventType))
  {
    if eventType.None? || eventType.value == "" then JsObject.Str(UnknownEvent)
    else
      var key := Lower(eventType.value);
      var v := JsObject.Get(LegacyOwn(key), key);
      if JsObject.Truthy(v) then v else JsObject.Str(eventType.value)
  }

  /** The older translator over the record's own entries. */
  function LegacyTranslateEventType(eventType: Option<string>): (r: string)
    ensures eventType.None? || eventType.value == "" ==> r == UnknownEvent
    ensures eventType.Some? && eventType.value != "" && Lower(eventType.value) in LegacyTranslations ==>
              r == LegacyTranslations[Lower(eventType.value)]
    ensures eventType.Some? && eventType.value != "" && Lower(eventType.value) !in LegacyTranslations ==>
              r == eventType.value
  {
    if eventType.None? || eventType.value == "" then UnknownEvent
    else
      var own := LegacyOwn(Lower(eventType.value));
      if own.Some? && own.value != "" then own.value else eventType.value
  }

  /** `"CONSTRUCTOR"` reaches the inherited constructor through the older
      table too. */
  lemma LegacyPrototypeKeyEscapes()
    ensures LegacyTranslateAsWritten(Some("CONSTRUCTOR")) == JsObject.Inherited("constructor")
  {
    assert Lower("CONSTRUCTOR") == "constructor";
  }

  /** Away from the inherited names the two definitions agree. */
  lemma LegacyAsWrittenAgrees(eventType: Option<string>)
    requires eventType.Some? ==> Lower(eventType.value) !in JsObject.PrototypeMembers
    ensures LegacyTranslateAsWritten(eventType) == JsObject.Str(LegacyTranslateEventType(eventType))
  {
  }

  /** The older table has its own vocabulary: `Sport` is known here as
      `Deporte`, while `sports` and `other` pass through unchanged. */
  lemma LegacyExamples()
    ensures LegacyTranslateEventType(Some("Sport")) == "Deporte"
    ensures LegacyTranslateEventType(Some("sports")) == "sports"
    ensures LegacyTranslateEventType(Some("other")) == "other"
    ensures LegacyTranslateEventType(None) == UnknownEvent
  {
    assert Lower("Sport") == "sport";
    assert Lower("sports") == "sports";
    assert Lower("other") == "other";
  }
}

=== FILE: config_api.dfy ===
/** `api/v1/config.py`: reading and changing the AI model setting. The
    setting is the `AI_MODEL` attribute of the settings object. The
    `Settings` class of `core/config.py` declares no such field, and a
    pydantic settings object refuses to be given a field it does not
    declare; the state keeps both cases apart. Writing the setting to disk
    is an input: whether it saved, or the exception it raised. */
module ConfigApi {
  import opened Wrappers
  import opened Errors

  /** The values of the `Literal` type of the request body. */
  const AcceptedModels: seq<string> := ["clip", "opencv_dnn", "opencv_yolo"]

  predicate Accepted(model: string) {
    model in AcceptedModels
  }

  /** The settings object as far as this endpoint sees it: the value of
      `AI_MODEL`, or `None` when the class declares no such field. */
  datatype ConfigState = ConfigState(aiModel: Option<string>)

  /** The settings of `core/config.py`, which declare no `AI_MODEL`. */
  const AsWrittenState: ConfigState := ConfigState(None)

  /** Settings declaring `AI_MODEL: str = "clip"`, as the settings stand-ins
      of the setup scripts do. */
  const DeclaredState: ConfigState := ConfigState(Some("clip"))

  /** `ConfigResponse` with `current_settings = {"ai_model": aiModel}`. */
  datatype ConfigResponse = ConfigResponse(message: string, aiModel: string)

  /** What `save_config_to_file` did: returned true, returned false, or
      raised; `valueError` tells a `ValueError` from any other exception. */
  datatype SaveOutcome = Saved | NotSaved | SaveRaised(valueError: bool, text: string)

  const CurrentConfig: string := "Configuración actual del sistema"
  const NoAttribute: string := "'Settings' object has no attribute 'AI_MODEL'"
  const NoField: string := "\"Settings\" object has no field \"AI_MODEL\""
  const NoSaveMethod: string := "'Settings' object has no attribute 'save_config_to_file'"

  /** The settings class defines no `save_config_to_file` either, so the
      call raises `AttributeError`, which is not a `ValueError`. */
  const AsWrittenSave: SaveOutcome := SaveRaised(false, NoSaveMethod)

  function InvalidModel(model: string): string {
    "Modelo de IA no válido: " + model
  }

  function SavedMessage(model: string): string {
    "Modelo de IA cambiado a " + model + " y configuración guardada"
  }

  function NotSavedMessage(model: string): string {
    "Modelo de IA cambiado a " + model + " pero no se pudo guardar la configuración"
  }

  /** `get_config`: the current model; reading a field the class does not
      declare raises `AttributeError`, which the general handler answers. */
  function GetConfig(s: ConfigState): (r: Result<ConfigResponse, Raised>)
    ensures s.aiModel.Some? <==> r.Ok?
    ensures r.Ok? ==> r.value.aiModel == s.aiModel.value && r.value.message == CurrentConfig
    ensures r.Err? ==> Handle(r.error).status == 500
  {
    match s.aiModel
    case Some(m) => Ok(ConfigResponse(CurrentConfig, m))
    case None => Err(Other(NoAttribute))
  }

  /** `set_ai_model` called with `model`: the new state and the response or
      the exception it raises. */
  function SetAiModel(s: ConfigState, model: string, save: SaveOutcome): (r: (ConfigState, Result<ConfigResponse, Raised>))
    ensures !Accepted(model) ==> r == (s, Err(Http(HttpError(400, InvalidModel(model)))))
    ensures Accepted(model) && s.aiModel.None? ==> r == (s, Err(Http(HttpError(400, NoField))))
    ensures Accepted(model) && s.aiModel.Some? ==> r.0 == ConfigState(Some(model))
    ensures r.1.Ok? <==> Accepted(model) && s.aiModel.Some? && !save.SaveRaised?
    ensures r.1.Ok? ==> r.1.value.aiModel == model &&
                        r.1.value.message == (if save.Saved? then SavedMessage(model) else NotSavedMessage(model))
    ensures Accepted(model) && s.aiModel.Some? && save.SaveRaised? ==>
              r.1 == Err(Http(if save.valueError then HttpError(400, save.text)
                              else HttpError(500, "Error al cambiar el modelo de IA: " + save.text)))
    ensures r.1.Err? ==> r.1.error.Http? && r.1.error.error.status in {400, 500}
  {
    if !Accepted(model) then (s, Err(Http(HttpError(400, InvalidModel(model)))))
    else if s.aiModel.None? then (s, Err(Http(HttpError(400, NoField))))
    else
      var s' := ConfigState(Some(model));
      match save
      case Saved => (s', Ok(ConfigResponse(SavedMessage(model), model)))
      case NotSaved => (s', Ok(ConfigResponse(NotSavedMessage(model), model)))
      case SaveRaised(true, text) => (s', Err(Http(HttpError(400, text))))
      case SaveRaised(false, text) => (s', Err(Http(HttpError(500, "Error al cambiar el modelo de IA: " + text))))
  }

  /** The JSON body of a `ConfigResponse`. */
  function ConfigBody(c: ConfigResponse): Json {
    JObject([("message", JStr(c.message)), ("current_settings", JObject([("ai_model", JStr(c.aiModel))]))])
  }

  /** `POST /ai-model`: the body is validated against the `Literal` type
      before the handler runs, so a model outside it is answered 422 by the
      validation handler; `errors` is what validation reports. */
  function PostAiModel(s: ConfigState, model: string, save: SaveOutcome, errors: seq<Json>): (r: (ConfigState, JsonResponse))
    ensures !Accepted(model) ==> r == (s, ValidationHandler(errors))
    ensures Accepted(model) && SetAiModel(s, model, save).1.Ok? ==>
              r.1 == JsonResponse(200, ConfigBody(SetAiModel(s, model, save).1.value))
    ensures Accepted(model) && SetAiModel(s, model, save).1.Err? ==>
              r.1 == Handle(SetAiModel(s, model, save).1.error)
    ensures Accepted(model) ==> r.0 == SetAiModel(s, model, save).0
  {
    if !Accepted(model) then (s, ValidationHandler(errors))
    else
      var (s', outcome) := SetAiModel(s, model, save);
      match outcome
      case Ok(c) => (s', JsonResponse(200, ConfigBody(c)))
      case Err(e) => (s', Handle(e))
  }

  /** Through the endpoint a model outside the three is answered 422 and
      leaves the setting alone; the handler's own 400 for it is reached only
      by calling the handler directly. */
  lemma InvalidModelRejected(s: ConfigState, model: string, save: SaveOutcome, errors: seq<Json>)
    requires !Accepted(model)
    ensures PostAiModel(s, model, save, errors).0 == s
    ensures PostAiModel(s, model, save, errors).1.status == 422
    ensures SetAiModel(s, model, save).1 == Err(Http(HttpError(400, InvalidModel(model))))
  {
  }

  /** With the settings of `core/config.py`, every accepted model is refused
      with 400 and the setting cannot be read. */
  lemma AsWrittenRejectsEveryModel(model: string, save: SaveOutcome, errors: seq<Json>)
    requires Accepted(model)
    ensures PostAiModel(AsWrittenState, model, save, errors) ==
            (AsWrittenState, HttpHandler(HttpError(400, NoField)))
    ensures GetConfig(AsWrittenState).Err?
  {
  }

  /** With the field declared, every accepted model is taken and answered
      200 unless saving raised. */
  lemma DeclaredAcceptsEveryModel(model: string, save: SaveOutcome, errors: seq<Json>)
    requires Accepted(model) && !save.SaveRaised?
    ensures PostAiModel(DeclaredState, model, save, errors).0 == ConfigState(Some(model))
    ensures PostAiModel(DeclaredState, model, save, errors).1.status == 200
  {
  }

  /** Declaring the field alone is not enough: the model is set in memory,
      then the missing save method raises and the general `except` answers
      every accepted model with 500. */
  lemma DeclaredStillFailsToSave(model: string, errors: seq<Json>)
    requires Accepted(model)
    ensures PostAiModel(DeclaredState, model, AsWrittenSave, errors) ==
            (ConfigState(Some(model)),
             HttpHandler(HttpError(500, "Error al cambiar el modelo de IA: " + NoSaveMethod)))
  {
  }

  /** Once the field is declared, a get after a set reports the model set,
      whether or not saving it worked. */
  lemma GetAfterSet(s: ConfigState, model: string, save: SaveOutcome)
    requires s.aiModel.Some? && Accepted(model)
    ensures GetConfig(SetAiModel(s, model, save).0) == Ok(ConfigResponse(CurrentConfig, model))
  {
  }

  /** The message depends on the save result alone, and the two messages
      differ. */
  lemma MessageFromSaveOnly(s: ConfigState, t: ConfigState, model: string, save: SaveOutcome)
    requires s.aiModel.Some? && t.aiModel.Some?
    ensures SetAiModel(s, model, save).1 == SetAiModel(t, model, save).1
    ensures SavedMessage(model) != NotSavedMessage(model)
  {
    var prefix := "Modelo de IA cambiado a " + model;
    assert SavedMessage(model)[|prefix| + 1] == 'y';
    assert NotSavedMessage(model)[|prefix| + 1] == 'p';
  }

  /** Setting the same model twice leaves the state as setting it once. */
  lemma SetTwice(s: ConfigState, model: string, save: SaveOutcome, save': SaveOutcome)
    ensures SetAiModel(SetAiModel(s, model, save).0, model, save').0 == SetAiModel(s, model, save).0
  {
  }

  /** The accepted models are three different strings. */
  lemma ThreeModels()
    ensures |AcceptedModels| == 3
    ensures Accepted("clip") && Accepted("opencv_dnn") && Accepted("opencv_yolo")
    ensures !Accepted("CLIP") && !Accepted("")
  {
  }
}

=== FILE: errors.dfy ===
/** `core/errors.py`: the application's exception hierarchy and the four
    handlers that turn an exception into a JSON response, plus FastAPI's
    own handler for `HTTPException`, which the endpoints raise. */
module Errors {
  import opened Wrappers

  /** A JSON value, with objects as ordered lists of fields. */
  datatype Json = JNull | JStr(s: string) | JInt(i: int) | JList(items: seq<Json>) | JObject(fields: seq<(string, Json)>)

  /** The value of the first field named `key` of an object. */
  function Field(j: Json, key: string): (r: Option<Json>)
    ensures r.Some? ==> j.JObject? && exists i :: 0 <= i < |j.fields| && j.fields[i] == (key, r.value)
  {
    if !j.JObject? then None else FirstField(j.fields, key)
  }

  function FirstField(fields: seq<(string, Json)>, key: string): (r: Option<Json>)
    ensures r.Some? ==> exists i :: 0 <= i < |fields| && fields[i] == (key, r.value)
    ensures r.None? ==> forall i :: 0 <= i < |fields| ==> fields[i].0 != key
  {
    if fields == [] then None
    else if fields[0].0 == key then Some(fields[0].1)
    else
      var r := FirstField(fields[1..], key);
      assert r.Some? ==> exists i :: 0 <= i < |fields| && fields[i] == (key, r.value) by {
        if r.Some? {
          var i :| 0 <= i < |fields| - 1 && fields[1..][i] == (key, r.value);
          assert fields[i + 1] == (key, r.value);
        }
      }
      r
  }

  /** The two field names of every handler's body are different. */
  lemma FieldNamesDiffer()
    ensures "message" != "detail" && "detail" != "message"
  {
    assert "message"[0] != "detail"[0];
  }

  /** `HTTPException(status_code, detail)`. */
  datatype HttpError = HttpError(status: int, detail: string)

  /** A `JSONResponse`. */
  datatype JsonResponse = JsonResponse(status: int, content: Json)

  /** An `AppException`; `detail` is the optional dictionary. */
  datatype AppException = AppException(message: string, statusCode: int, detail: Option<seq<(string, Json)>>)

  const InternalError: string := "Se produjo un error interno"
  const DatabaseError: string := "Error en la base de datos"
  const InputValidationError: string := "Error de validación en los datos de entrada"

  /** `AppException(message, status_code, detail)` with its defaults. */
  function NewAppException(message: Option<string>, statusCode: Option<int>, detail: Option<seq<(string, Json)>>): (e: AppException)
    ensures message.None? ==> e.message == InternalError
    ensures statusCode.None? ==> e.statusCode == 500
    ensures message.Some? ==> e.message == message.value
    ensures statusCode.Some? ==> e.statusCode == statusCode.value
    ensures e.detail == detail
  {
    AppException(message.GetOr(InternalError), statusCode.GetOr(500), detail)
  }

  /** The subclasses of `AppException`, each of which fixes the status. */
  datatype Subclass = NotFound | Validation | Database | Unauthorized | Forbidden

  function SubclassStatus(c: Subclass): int {
    match c
    case NotFound => 404
    case Validation => 422
    case Database => 500
    case Unauthorized => 401
    case Forbidden => 403
  }

  function SubclassMessage(c: Subclass): string {
    match c
    case NotFound => "Recurso no encontrado"
    case Validation => "Error de validación de datos"
    case Database => DatabaseError
    case Unauthorized => "No autorizado"
    case Forbidden => "Acceso prohibido"
  }

  /** A subclass's constructor: an `AppException` whose status is the
      subclass's, whatever message is given. */
  function NewSubclass(c: Subclass, message: Option<string>, detail: Option<seq<(string, Json)>>): (e: AppException)
    ensures e.statusCode == SubclassStatus(c)
    ensures e.message == if message.Some? then message.value else SubclassMessage(c)
    ensures e.detail == detail
  {
    NewAppException(Some(message.GetOr(SubclassMessage(c))), Some(SubclassStatus(c)), detail)
  }

  /** The subclasses are told apart by their status, except that a database
      error answers 500 like an unqualified `AppException`; every one of them
      is an error status. */
  lemma SubclassStatuses(c: Subclass, d: Subclass)
    ensures SubclassStatus(c) == SubclassStatus(d) ==> c == d
    ensures SubclassStatus(c) == NewAppException(None, None, None).statusCode <==> c == Database
    ensures 400 <= SubclassStatus(c) < 600
  {
  }

  /** What can reach a handler. */
  datatype Raised =
    | App(exc: AppException)
    | RequestValidation(errors: seq<Json>)
    | SqlAlchemy(text: string)
    | Http(error: HttpError)
    | Other(text: string)

  /** `app_exception_handler`: the exception's status and message, and its
      detail, or an empty object when it has none. */
  function AppHandler(e: AppException): (r: JsonResponse)
    ensures r.status == e.statusCode
    ensures Field(r.content, "message") == Some(JStr(e.message))
    ensures e.detail.None? ==> Field(r.content, "detail") == Some(JObject([]))
    ensures e.detail.Some? ==> Field(r.content, "detail") == Some(JObject(e.detail.value))
  {
    JsonResponse(e.statusCode, MessageAndDetail(JStr(e.message), JObject(e.detail.GetOr([]))))
  }

  /** The body `{"message": message, "detail": detail}` every handler in
      this file builds. */
  function MessageAndDetail(message: Json, detail: Json): (r: Json)
    ensures Field(r, "message") == Some(message)
    ensures Field(r, "detail") == Some(detail)
  {
    var fields := [("message", message), ("detail", detail)];
    FieldNamesDiffer();
    assert fields[1..] == [("detail", detail)];
    assert FirstField(fields[1..], "detail") == Some(detail);
    JObject(fields)
  }

  /** `validation_exception_handler`. */
  function ValidationHandler(errors: seq<Json>): (r: JsonResponse)
    ensures r.status == 422
    ensures Field(r.content, "message") == Some(JStr(InputValidationError))
    ensures Field(r.content, "detail") == Some(JObject([("errors", JList(errors))]))
  {
    JsonResponse(422, MessageAndDetail(JStr(InputValidationError), JObject([("errors", JList(errors))])))
  }

  /** The body shared by the database and general handlers: a fixed message
      and the exception's text. */
  function ServerError(message: string, text: string): (r: JsonResponse)
    ensures r.status == 500
    ensures Field(r.content, "message") == Some(JStr(message))
    ensures Field(r.content, "detail") == Some(JObject([("error", JStr(text))]))
  {
    JsonResponse(500, MessageAndDetail(JStr(message), JObject([("error", JStr(text))])))
  }

  /** FastAPI's default handler for `HTTPException`. */
  function HttpHandler(e: HttpError): (r: JsonResponse)
    ensures r.status == e.status
    ensures Field(r.content, "detail") == Some(JStr(e.detail))
    ensures Field(r.content, "message").None?
  {
    JsonResponse(e.status, JObject([("detail", JStr(e.detail))]))
  }

  /** `register_exception_handlers`: each kind of exception goes to its
      handler; anything else goes to the general one. */
  function Handle(e: Raised): (r: JsonResponse)
    ensures e.App? ==> r == AppHandler(e.exc)
    ensures e.RequestValidation? ==> r == ValidationHandler(e.errors)
    ensures e.SqlAlchemy? ==> r == ServerError(DatabaseError, e.text)
    ensures e.Http? ==> r == HttpHandler(e.error)
    ensures e.Other? ==> r == ServerError(InternalError, e.text)
  {
    match e
    case App(exc) => AppHandler(exc)
    case RequestValidation(errors) => ValidationHandler(errors)
    case SqlAlchemy(text) => ServerError(DatabaseError, text)
    case Http(error) => HttpHandler(error)
    case Other(text) => ServerError(InternalError, text)
  }

  /** Every response the handlers build is an error status, given that an
      application exception built with an explicit status carries one. */
  lemma HandledIsError(e: Raised)
    requires e.App? ==> 400 <= e.exc.statusCode < 600
    requires e.Http? ==> 400 <= e.error.status < 600
    ensures 400 <= Handle(e).status < 600
  {
  }

  /** A subclass raised with its default message answers with the
      subclass's status and message and an empty detail. */
  lemma SubclassResponse(c: Subclass)
    ensures Handle(App(NewSubclass(c, None, None))).status == SubclassStatus(c)
    ensures Field(Handle(App(NewSubclass(c, None, None))).content, "message") == Some(JStr(SubclassMessage(c)))
    ensures Field(Handle(App(NewSubclass(c, None, None))).content, "detail") == Some(JObject([]))
  {
  }

  /** A `DatabaseException` and a SQLAlchemy error give the same status and
      message and differ only in the detail: the SQLAlchemy handler puts the
      error's text there. */
  lemma DatabaseErrorsAlike(text: string)
    ensures Handle(App(NewSubclass(Database, None, None))).status == Handle(SqlAlchemy(text)).status
    ensures Field(Handle(App(NewSubclass(Database, None, None))).content, "message") ==
            Field(Handle(SqlAlchemy(text)).content, "message")
    ensures Field(Handle(App(NewSubclass(Database, None, None))).content, "detail") !=
            Field(Handle(SqlAlchemy(text)).content, "detail")
  {
  }
}

=== FILE: file_validator.dfy ===
/** `utils/file_validator.py`: the MIME allow-lists, the validation of an
    uploaded file and the choice of a name that does not overwrite an
    existing file. The MIME type sniffed from the first bytes and the set of
    paths that already exist are inputs. */
module FileValidator {
  import opened Wrappers
  import opened Text
  import opened Paths
  import opened Errors

  const AllowedImageMimes: set<string> := {"image/jpeg", "image/png", "image/heic", "image/heif"}
  const AllowedVideoMimes: set<string> := {"video/mp4", "video/quicktime", "video/x-msvideo"}
  const AllowedMimes: set<string> := AllowedImageMimes + AllowedVideoMimes

  /** The two allow-lists do not overlap, so the seven allowed types split
      into four images and three videos. */
  lemma MimeListsDisjoint()
    ensures AllowedImageMimes !! AllowedVideoMimes
    ensures |AllowedImageMimes| == 4 && |AllowedVideoMimes| == 3 && |AllowedMimes| == 7
  {
  }

  const EmptyFile: string := "El archivo está vacío"

  /** `validate_file`: `firstChunk` is what the first read of up to 100 bytes
      returned, `mime` what sniffing those bytes gave, and `listing` the
      allowed types in the order the set iterates over them. */
  function ValidateFile(firstChunk: seq<bv8>, mime: string, listing: seq<string>): (r: Result<(string, string), HttpError>)
    ensures firstChunk == [] ==> r == Err(HttpError(400, EmptyFile))
    ensures firstChunk != [] && mime !in AllowedMimes ==>
              r.Err? && r.error.status == 400 && StartsWith(r.error.detail, "Tipo de archivo " + mime + " no permitido")
    ensures r.Ok? <==> firstChunk != [] && mime in AllowedMimes
    ensures r.Ok? ==> r.value.0 == mime && (r.value.1 == "image" <==> mime in AllowedImageMimes)
  {
    if firstChunk == [] then Err(HttpError(400, EmptyFile))
    else if mime !in AllowedMimes then
      Err(HttpError(400, "Tipo de archivo " + mime + " no permitido. Tipos permitidos: " + JoinWith(listing, ", ")))
    else Ok((mime, if mime in AllowedImageMimes then "image" else "video"))
  }

  /** Every accepted file is classified as a video exactly when its type is
      on the video list. */
  lemma ClassifiedAsVideo(firstChunk: seq<bv8>, mime: string, listing: seq<string>)
    requires ValidateFile(firstChunk, mime, listing).Ok?
    ensures ValidateFile(firstChunk, mime, listing).value.1 == "video" <==> mime in AllowedVideoMimes
  {
    MimeListsDisjoint();
  }

  /** The `counter`-th alternative name for a colliding upload. */
  function Candidate(destination: Path, base: string, extension: string, counter: nat): Path
    requires WellFormed(destination)
  {
    Join(destination, base + "_" + NatToString(counter) + extension)
  }

  /** Neither the stem nor the suffix of a name contains a `/` the name
      does not contain. */
  lemma StemSuffixNoSlash(name: string)
    requires '/' !in name
    ensures '/' !in Stem(name) && '/' !in Suffix(name)
  {
    StemSuffix(name);
    var s, x := Stem(name), Suffix(name);
    assert forall k :: 0 <= k < |s| ==> s[k] == name[k];
    assert forall k :: 0 <= k < |x| ==> x[k] == name[|s| + k];
  }

  /** The alternative names are single components of the destination and
      pairwise different. */
  lemma CandidateInjective(destination: Path, base: string, extension: string, j: nat, k: nat)
    requires WellFormed(destination) && '/' !in base && '/' !in extension
    requires Candidate(destination, base, extension, j) == Candidate(destination, base, extension, k)
    ensures j == k
  {
    var sj := base + "_" + NatToString(j) + extension;
    var sk := base + "_" + NatToString(k) + extension;
    assert forall s :: s == sj || s == sk ==> IsComponent(s) by {
      assert sj[|base|] == '_' && sk[|base|] == '_';
      forall i | 0 <= i < |NatToString(j)| ensures NatToString(j)[i] != '/' { }
      forall i | 0 <= i < |NatToString(k)| ensures NatToString(k)[i] != '/' { }
      assert '/' !in sj && '/' !in sk;
    }
    JoinComponent(destination, sj);
    JoinComponent(destination, sk);
    assert sj == sk;
    assert |NatToString(j)| == |NatToString(k)|;
    assert NatToString(j) == sj[|base| + 1..|base| + 1 + |NatToString(j)|];
    assert NatToString(k) == sk[|base| + 1..|base| + 1 + |NatToString(k)|];
    NatToStringInjective(j, k);
  }

  /** An alternative name always lies directly in the destination, even
      when the uploaded name had directory parts: `a/b.txt` is renamed to
      `b_1.txt` beside `a`, not inside it. */
  lemma CandidateInDestination(destination: Path, base: string, extension: string, k: nat)
    requires WellFormed(destination) && '/' !in base && '/' !in extension
    ensures Parent(Candidate(destination, base, extension, k)) == destination
    ensures Name(Candidate(destination, base, extension, k)) == base + "_" + NatToString(k) + extension
  {
    var s := base + "_" + NatToString(k) + extension;
    assert s[|base|] == '_';
    forall i | 0 <= i < |NatToString(k)| ensures NatToString(k)[i] != '/' { }
    assert '/' !in s;
    JoinComponent(destination, s);
  }

  /** The renaming loop of `save_upload_file`, for any naming scheme that
      gives a different name for every counter: tries counters 1, 2, ...
      and stops at the first name that is not taken. It stops because each
      taken name it passes is a different member of the finite `taken`. */
  method FirstFree<T(==)>(name: nat -> T, taken: set<T>) returns (chosen: T, counter: nat)
    requires forall j: nat, k: nat :: name(j) == name(k) ==> j == k
    ensures 1 <= counter && chosen == name(counter)
    ensures chosen !in taken
    ensures forall j: nat :: 1 <= j < counter ==> name(j) in taken
  {
    counter := 1;
    chosen := name(counter);
    ghost var passed: set<T> := {};
    while chosen in taken
      invariant 1 <= counter && chosen == name(counter)
      invariant passed <= taken
      invariant forall j: nat :: 1 <= j < counter ==> name(j) in passed
      invariant forall x :: x in passed ==> exists j: nat :: 1 <= j < counter && x == name(j)
      decreases |taken - passed|
    {
      assert (taken - passed) == (taken - (passed + {chosen})) + {chosen};
      passed := passed + {chosen};
      counter := counter + 1;
      chosen := name(counter);
    }
  }

  /** The path `save_upload_file` writes to: `destination / filename` when
      that is free, otherwise `stem_k.suffix` in `destination` for the
      smallest `k >= 1` that is free. `existing` is the set of paths that
      exist. */
  method SaveTarget(destination: Path, filename: string, existing: set<Path>) returns (target: Path)
    requires WellFormed(destination)
    ensures target !in existing
    ensures Join(destination, filename) !in existing ==> target == Join(destination, filename)
    ensures Join(destination, filename) in existing ==>
              var first := Name(Join(destination, filename));
              exists k: nat :: 1 <= k && target == Candidate(destination, Stem(first), Suffix(first), k) &&
                forall j: nat :: 1 <= j < k ==> Candidate(destination, Stem(first), Suffix(first), j) in existing
  {
    target := Join(destination, filename);
    if target in existing {
      var first := Name(target);
      assert '/' !in first by {
        if target.parts != [] {
          assert IsComponent(target.parts[|target.parts| - 1]);
        }
      }
      StemSuffixNoSlash(first);
      var base, extension := Stem(first), Suffix(first);
      var name := (k: nat) => Candidate(destination, base, extension, k);
      forall j: nat, k: nat | name(j) == name(k) ensures j == k {
        CandidateInjective(destination, base, extension, j, k);
      }
      var counter;
      target, counter := FirstFree(name, existing);
      assert forall j: nat :: 1 <= j < counter ==> Candidate(destination, base, extension, j) in existing by {
        forall j: nat | 1 <= j < counter ensures Candidate(destination, base, extension, j) in existing {
          assert name(j) in existing;
        }
      }
    }
  }

  /** `save_upload_file`: `failure` is the error raised while creating the
      directory or writing the file, if any; every such error becomes a 500. */
  method SaveUploadFile(destination: Path, filename: string, existing: set<Path>, failure: Option<string>)
    returns (r: Result<Path, HttpError>)
    requires WellFormed(destination)
    ensures failure.Some? ==> r == Err(HttpError(500, "Error al guardar el archivo: " + failure.value))
    ensures failure.None? ==> r.Ok? && r.value !in existing
    ensures failure.None? && Join(destination, filename) !in existing ==> r == Ok(Join(destination, filename))
    ensures failure.None? && Join(destination, filename) in existing ==>
              var first := Name(Join(destination, filename));
              exists k: nat :: 1 <= k && r == Ok(Candidate(destination, Stem(first), Suffix(first), k)) &&
                forall j: nat :: 1 <= j < k ==> Candidate(destination, Stem(first), Suffix(first), j) in existing
  {
    if failure.Some? {
      return Err(HttpError(500, "Error al guardar el archivo: " + failure.value));
    }
    var target := SaveTarget(destination, filename, existing);
    return Ok(target);
  }
}

=== FILE: gallery_app.dfy ===
/** The list logic of `App.tsx`: the search filter over the cached media
    list, the optimistic update applied after a delete, and the guard on the
    grid/list view toggle. */
module GalleryApp {
  import opened Wrappers
  import opened Text
  import opened Seqs

  /** The fields of a listed media item the list logic reads. */
  datatype MediaItem = MediaItem(id: int, filename: string, eventType: Option<string>)

  /** The search box matches a file name or a non-empty event type,
      ignoring case. */
  predicate MatchesQuery(query: string, m: MediaItem) {
    || Includes(Lower(m.filename), Lower(query))
    || (m.eventType.Some? && m.eventType.value != "" && Includes(Lower(m.eventType.value), Lower(query)))
  }

  /** The predicate passed to `filter`: an empty query keeps everything. */
  predicate Shown(query: string, m: MediaItem) {
    query == "" || MatchesQuery(query, m)
  }

  /** `filteredMedia`. */
  function FilteredMedia(mediaList: seq<MediaItem>, query: string): (r: seq<MediaItem>)
    ensures IsSubsequence(r, mediaList)
    ensures forall i :: 0 <= i < |r| ==> Shown(query, r[i])
    ensures forall i :: 0 <= i < |mediaList| && Shown(query, mediaList[i]) ==> mediaList[i] in r
    ensures |r| == CountIf(mediaList, m => Shown(query, m))
  {
    Keep(mediaList, m => Shown(query, m))
  }

  /** An empty search shows the whole list. */
  lemma EmptyQueryShowsAll(mediaList: seq<MediaItem>)
    ensures FilteredMedia(mediaList, "") == mediaList
  {
    KeepAll(mediaList, m => Shown("", m));
  }

  /** The cache updater of `handleMediaDelete`: a missing cache becomes
      empty, otherwise every item with the deleted id is dropped. */
  function AfterDelete(cached: Option<seq<MediaItem>>, id: int): (r: seq<MediaItem>)
    ensures cached.None? ==> r == []
    ensures cached.Some? ==> IsSubsequence(r, cached.value)
    ensures forall i :: 0 <= i < |r| ==> r[i].id != id
    ensures cached.Some? ==> forall i :: 0 <= i < |cached.value| && cached.value[i].id != id ==> cached.value[i] in r
    ensures cached.Some? ==> |r| == CountIf(cached.value, (m: MediaItem) => m.id != id)
  {
    match cached
    case None => []
    case Some(items) => Keep(items, (m: MediaItem) => m.id != id)
  }

  /** Deleting and searching commute: the list shown after a delete is the
      previous search result without the deleted item. */
  lemma DeleteThenFilter(items: seq<MediaItem>, id: int, query: string)
    ensures FilteredMedia(AfterDelete(Some(items), id), query) == AfterDelete(Some(FilteredMedia(items, query)), id)
  {
    KeepCommutes(items, (m: MediaItem) => m.id != id, m => Shown(query, m));
  }

  datatype ViewMode = Grid | List

  /** The toggle's `onChange`: clicking the selected button reports `null`,
      which keeps the current mode, so some mode is always selected. */
  function NextViewMode(current: ViewMode, requested: Option<ViewMode>): (r: ViewMode)
    ensures requested.None? ==> r == current
    ensures requested.Some? ==> r == requested.value
  {
    if requested.Some? then requested.value else current
  }

  /** Repeating the same toggle event changes nothing more, and a null
      event never leaves the mode it finds. */
  lemma ViewModeSettles(current: ViewMode, requested: Option<ViewMode>)
    ensures NextViewMode(NextViewMode(current, requested), requested) == NextViewMode(current, requested)
    ensures NextViewMode(current, requested) == current || requested == Some(NextViewMode(current, requested))
  {
  }
}

=== FILE: js_object.dfy ===
/** Reading a property of a JavaScript object literal with `obj[key]`: an
    own property gives its string, a name of `Object.prototype` gives the
    inherited member, anything else gives `undefined`. */
module JsObject {
  import opened Wrappers

  datatype JsValue = Undefined | Str(s: string) | Inherited(name: string)

  /** The property names every object literal inherits (all of
      `Object.prototype`, plus the `__proto__` accessor). */
  const PrototypeMembers: set<string> := {
    "constructor", "__proto__", "hasOwnProperty", "isPrototypeOf",
    "propertyIsEnumerable", "toString", "toLocaleString", "valueOf",
    "__defineGetter__", "__defineSetter__", "__lookupGetter__", "__lookupSetter__"
  }

  /** `obj[key]`, where `own` is the object's own property named `key`. */
  function Get(own: Option<string>, key: string): (v: JsValue)
    ensures own.Some? ==> v == Str(own.value)
    ensures own.None? && key in PrototypeMembers ==> v == Inherited(key)
    ensures own.None? && key !in PrototypeMembers ==> v == Undefined
  {
    if own.Some? then Str(own.value)
    else if key in PrototypeMembers then Inherited(key)
    else Undefined
  }

  /** JavaScript truthiness: functions and objects are truthy, so is every
      non-empty string. */
  predicate Truthy(v: JsValue) {
    match v
    case Undefined => false
    case Str(s) => s != ""
    case Inherited(_) => true
  }
}

=== FILE: location_service.dfy ===
/** The reverse-geocoding display name of `locationService.ts`: the answer of
    the Nominatim `reverse` endpoint is an input (`FetchOutcome`), and
    `toFixed(4)` is the caller-supplied `fmt4`. */
module LocationService {
  import opened Wrappers

  /** The fields of Nominatim's `address` object that the resolver reads;
      a field the service did not send is `None`. */
  datatype Address = Address(
    city: Option<string>,
    town: Option<string>,
    village: Option<string>,
    municipality: Option<string>,
    suburb: Option<string>,
    country: Option<string>)

  /** The decoded body: not JSON, JSON without an `address` object (which
      makes `data.address.city` throw), or JSON with one. */
  datatype Payload = Unparseable | NoAddress | WithAddress(address: Address)

  /** What `fetch` settled to: a rejected promise, or a response. */
  datatype FetchOutcome = NetworkError | Response(ok: bool, payload: Payload)

  /** JavaScript truthiness of an optional string. */
  predicate Truthy(v: Option<string>) {
    v.Some? && v.value != ""
  }

  /** `a || b`. */
  function Or(a: Option<string>, b: Option<string>): Option<string> {
    if Truthy(a) then a else b
  }

  /** The candidate locality fields in priority order. */
  function LocalityChain(a: Address): seq<Option<string>> {
    [a.city, a.town, a.village, a.municipality, a.suburb]
  }

  /** `city || town || village || municipality || suburb`. */
  function Locality(a: Address): Option<string> {
    Or(a.city, Or(a.town, Or(a.village, Or(a.municipality, a.suburb))))
  }

  /** The coordinate string shown whenever no place name is available. */
  function Fallback(lat: real, lon: real, fmt4: real -> string): string {
    fmt4(lat) + ", " + fmt4(lon)
  }

  /** The name built from a decoded address. */
  function Describe(a: Address, lat: real, lon: real, fmt4: real -> string): string {
    var city := Locality(a);
    if Truthy(city) && Truthy(a.country) then city.value + ", " + a.country.value
    else if Truthy(a.country) then a.country.value
    else Fallback(lat, lon, fmt4)
  }

  /** `getLocationNameFromCoords(lat, lon)`: never fails; every failure of
      the request or of the payload shows the coordinates. */
  function LocationName(lat: real, lon: real, fetched: FetchOutcome, fmt4: real -> string): (r: string)
    ensures !(fetched.Response? && fetched.ok && fetched.payload.WithAddress?) ==>
              r == Fallback(lat, lon, fmt4)
    ensures fetched.Response? && fetched.ok && fetched.payload.WithAddress? ==>
              var a := fetched.payload.address;
              && (Truthy(Locality(a)) && Truthy(a.country) ==> r == Locality(a).value + ", " + a.country.value)
              && (!Truthy(Locality(a)) && Truthy(a.country) ==> r == a.country.value)
              && (!Truthy(a.country) ==> r == Fallback(lat, lon, fmt4))
  {
    match fetched
    case NetworkError => Fallback(lat, lon, fmt4)
    case Response(ok, payload) =>
      if !ok then Fallback(lat, lon, fmt4)
      else match payload
        case WithAddress(a) => Describe(a, lat, lon, fmt4)
        case _ => Fallback(lat, lon, fmt4)
  }

  /** The `||` cascade picks the first truthy field of the priority list and
      ignores every later one; it is falsy exactly when all of them are. */
  lemma LocalityIsFirstTruthy(a: Address)
    ensures Truthy(Locality(a)) <==> exists i :: 0 <= i < 5 && Truthy(LocalityChain(a)[i])
    ensures forall i :: 0 <= i < 5 && Truthy(LocalityChain(a)[i]) &&
                        (forall j :: 0 <= j < i ==> !Truthy(LocalityChain(a)[j])) ==>
                          Locality(a) == LocalityChain(a)[i]
  {
    var c := LocalityChain(a);
    if Truthy(Locality(a)) {
      if Truthy(a.city) { assert Truthy(c[0]); }
      else if Truthy(a.town) { assert Truthy(c[1]); }
      else if Truthy(a.village) { assert Truthy(c[2]); }
      else if Truthy(a.municipality) { assert Truthy(c[3]); }
      else { assert Truthy(c[4]); }
    }
  }

  /** A locality is shown only together with a country: an address with a
      city but no country still shows the coordinates. */
  lemma CityWithoutCountryShowsCoordinates(lat: real, lon: real, fmt4: real -> string, city: string)
    requires city != ""
    ensures var a := Address(Some(city), None, None, None, None, None);
            LocationName(lat, lon, Response(true, WithAddress(a)), fmt4) == Fallback(lat, lon, fmt4)
  {
  }

  /** The region is never read: `{state: "Bavaria", country: "Germany"}`
      shows only the country. */
  lemma RegionIsIgnored(lat: real, lon: real, fmt4: real -> string)
    ensures var a := Address(None, None, None, None, None, Some("Germany"));
            LocationName(lat, lon, Response(true, WithAddress(a)), fmt4) == "Germany"
  {
  }

  /** A town is used when there is no city, and a suburb only when nothing
      before it in the chain is present. */
  lemma TownBeforeSuburb(lat: real, lon: real, fmt4: real -> string)
    ensures var a := Address(Some(""), Some("Alcalá"), None, None, Some("Centro"), Some("España"));
            LocationName(lat, lon, Response(true, WithAddress(a)), fmt4) == "Alcalá, España"
  {
  }
}

=== FILE: media_api.dfy ===
/** `api/v1/media.py`: the media endpoints over the store of
    `crud/media.py`. What the processor reads from the stored file, the
    event it predicts and how the final commit ends are inputs. */
module MediaApi {
  import opened Wrappers
  import opened Text
  import opened Paths
  import opened Errors
  import opened MediaModel
  import MediaStore
  import MediaProcessor

  const Unsupported: string := "Tipo de archivo no soportado"
  const NotFoundDetail: string := "Media not found"
  const Deleted: string := "Media deleted successfully"
  const DefaultSkip: int := 0
  const DefaultLimit: int := 100

  /** The uploaded file as the endpoint sees it: its name, the content type
      the client declared and the size of the copy written to disk. */
  datatype UploadFile = UploadFile(filename: string, contentType: string, fileSize: int)

  predicate IsImage(contentType: string) {
    StartsWith(contentType, "image/")
  }

  predicate IsMedia(contentType: string) {
    StartsWith(contentType, "image/") || StartsWith(contentType, "video/")
  }

  /** How `db.commit()` and `db.refresh(db_media)` at the end of the upload
      end. A failed flush rolls the session back and expires `db_media`, so
      serializing it afterwards raises; a failure of the COMMIT statement
      itself leaves the processed attributes in memory; a failed refresh
      comes after the processed row was written. */
  datatype CommitOutcome = Committed | RefreshFails | FlushFails | CommitStatementFails

  /** Whether the processed row reached the table. */
  predicate Written(c: CommitOutcome) {
    c.Committed? || c.RefreshFails?
  }

  /** What the server answers when an exception escapes the endpoint and no
      handler of the application catches it. */
  const InternalServerError: string := "Internal Server Error"

  /** What processing the stored file meets: the runs of the two thumbnail
      makers, the longer thumbnail side, what reading the file as an image or
      as a video gives, the date parser, the `(event, confidence)` the
      classifier predicts, and how the final commit ends. */
  datatype Processing = Processing(
    image: MediaProcessor.ImageRun,
    video: MediaProcessor.VideoRun,
    maxSide: nat,
    imageInfo: MediaProcessor.ImageInfo,
    videoInfo: Option<MediaProcessor.VideoInfo>,
    parseDate: string -> Option<DateTime>,
    prediction: (string, real),
    commit: CommitOutcome)

  /** A metadata value written into a nullable column. */
  function Lift<T>(p: Patch<T>): (r: Patch<Option<T>>)
    ensures p.Unset? <==> r.Unset?
    ensures p.Set? ==> r == Set(Some(p.value))
  {
    match p
    case Unset => Unset
    case Set(v) => Set(Some(v))
  }

  /** `setattr(db_media, key, value)` for every key the metadata has: only
      those columns change. */
  function ApplyMetadata(m: Media, md: MediaProcessor.Metadata): (r: Media)
    ensures r.(width := m.width, height := m.height, duration := m.duration,
               latitude := m.latitude, longitude := m.longitude, creationDate := m.creationDate) == m
    ensures r.width == Patched(m.width, Lift(md.width))
    ensures r.height == Patched(m.height, Lift(md.height))
    ensures r.duration == Patched(m.duration, md.duration)
    ensures r.latitude == Patched(m.latitude, Lift(md.latitude))
    ensures r.longitude == Patched(m.longitude, Lift(md.longitude))
    ensures r.creationDate == Patched(m.creationDate, Lift(md.creationDate))
  {
    m.(width := Patched(m.width, Lift(md.width)),
       height := Patched(m.height, Lift(md.height)),
       duration := Patched(m.duration, md.duration),
       latitude := Patched(m.latitude, Lift(md.latitude)),
       longitude := Patched(m.longitude, Lift(md.longitude)),
       creationDate := Patched(m.creationDate, Lift(md.creationDate)))
  }

  /** The processing step of `upload_media` applied to the created row: a
      thumbnail when one was made, the metadata, and for images the
      predicted event. Id, name, path, type and size are left as they are. */
  function Processed(m: Media, contentType: string, p: Processing): (r: Media)
    ensures r.id == m.id && r.filename == m.filename && r.filePath == m.filePath
    ensures r.mimeType == m.mimeType && r.fileSize == m.fileSize && r.processedFilePath == m.processedFilePath
    ensures r.thumbnailPath.Some? <==>
              m.thumbnailPath.Some? ||
              MediaProcessor.CreateThumbnail(m.filePath, contentType, p.image, p.video, p.maxSide).Some?
    ensures MediaProcessor.CreateThumbnail(m.filePath, contentType, p.image, p.video, p.maxSide).Some? ==>
              r.thumbnailPath == Some(MediaProcessor.WebPath(MediaProcessor.ThumbnailName(m.filePath)))
    ensures MediaProcessor.CreateThumbnail(m.filePath, contentType, p.image, p.video, p.maxSide).None? ==>
              r.thumbnailPath == m.thumbnailPath
    ensures var md := MediaProcessor.ExtractMetadata(contentType, p.imageInfo, p.videoInfo, p.parseDate);
            && r.width == Patched(m.width, Lift(md.width))
            && r.height == Patched(m.height, Lift(md.height))
            && r.duration == Patched(m.duration, md.duration)
            && r.latitude == Patched(m.latitude, Lift(md.latitude))
            && r.longitude == Patched(m.longitude, Lift(md.longitude))
            && r.creationDate == Patched(m.creationDate, Lift(md.creationDate))
    ensures IsImage(contentType) ==> r.eventType == Some(p.prediction.0) && r.eventConfidence == Some(p.prediction.1)
    ensures !IsImage(contentType) ==> r.eventType == m.eventType && r.eventConfidence == m.eventConfidence
  {
    var thumbnail := MediaProcessor.CreateThumbnail(m.filePath, contentType, p.image, p.video, p.maxSide);
    var withThumbnail := if thumbnail.Some? then m.(thumbnailPath := thumbnail) else m;
    var metadata := MediaProcessor.ExtractMetadata(contentType, p.imageInfo, p.videoInfo, p.parseDate);
    var withMetadata := ApplyMetadata(withThumbnail, metadata);
    if IsImage(contentType) then
      withMetadata.(eventType := Some(p.prediction.0), eventConfidence := Some(p.prediction.1))
    else withMetadata
  }

  /** `POST /upload/`: a content type that is neither an image nor a video
      is refused before anything is written. Otherwise the file is written
      to `uploadsDir / filename`, a row is created for it and processed.
      The processing steps catch their own errors; an error of the final
      commit is caught and printed, and `db_media` is returned. After a
      failed flush that object is expired in a rolled-back session, so
      answering with it raises and the client gets a 500, while the table
      keeps the created row. */
  function UploadMedia(rows: seq<Media>, uploadsDir: Path, file: UploadFile, p: Processing): (r: (seq<Media>, Result<Media, HttpError>))
    requires MediaStore.Valid(rows) && WellFormed(uploadsDir)
    ensures !IsMedia(file.contentType) ==> r == (rows, Err(HttpError(400, Unsupported)))
    ensures IsMedia(file.contentType) ==> (r.1.Ok? <==> !p.commit.FlushFails?)
    ensures MediaStore.Valid(r.0)
    ensures IsMedia(file.contentType) ==>
              var created := MediaStore.Create(rows, MediaCreate(file.filename, file.contentType, file.fileSize),
                                               ToString(Join(uploadsDir, file.filename)));
              && (!Written(p.commit) ==> r.0 == created.0)
              && (p.commit.FlushFails? ==> r.1 == Err(HttpError(500, InternalServerError)))
              && (r.1.Ok? ==> r.1.value == Processed(created.1, file.contentType, p))
    ensures r.1.Ok? ==> (
      var m := r.1.value;
      && m.id !in MediaStore.ToMap(rows)
      && m.filename == file.filename && m.mimeType == file.contentType && m.fileSize == file.fileSize
      && m.filePath == ToString(Join(uploadsDir, file.filename))
      && (IsImage(file.contentType) ==> m.eventType == Some(p.prediction.0))
      && (!IsImage(file.contentType) ==> m.eventType.None?)
      && (Written(p.commit) ==> MediaStore.ToMap(r.0) == MediaStore.ToMap(rows)[m.id := m])
      && (!Written(p.commit) ==> m.id in MediaStore.ToMap(r.0) && MediaStore.ToMap(r.0)[m.id].thumbnailPath.None? &&
                                 MediaStore.ToMap(r.0) - {m.id} == MediaStore.ToMap(rows)))
  {
    if !IsMedia(file.contentType) then (rows, Err(HttpError(400, Unsupported)))
    else
      var filePath := ToString(Join(uploadsDir, file.filename));
      var (created, row) := MediaStore.Create(rows, MediaCreate(file.filename, file.contentType, file.fileSize), filePath);
      var processed := Processed(row, file.contentType, p);
      assert processed.id == row.id && processed.filePath == filePath && row.id !in MediaStore.ToMap(rows);
      assert processed.filename == file.filename && processed.mimeType == file.contentType &&
             processed.fileSize == file.fileSize;
      assert !IsImage(file.contentType) ==> processed.eventType.None?;
      match p.commit
      case FlushFails => (created, Err(HttpError(500, InternalServerError)))
      case CommitStatementFails =>
        assert MediaStore.ToMap(created)[row.id] == row;
        assert MediaStore.ToMap(created) - {row.id} == MediaStore.ToMap(rows);
        (created, Ok(processed))
      case _ => (MediaStore.Commit(created, processed), Ok(processed))
  }

  /** When the flush fails the client gets a 500, yet the row created
      before processing stays in the table and can be read back,
      unprocessed. */
  lemma FlushFailureKeepsCreatedRow(rows: seq<Media>, uploadsDir: Path, file: UploadFile, p: Processing)
    requires MediaStore.Valid(rows) && WellFormed(uploadsDir)
    requires IsMedia(file.contentType) && p.commit.FlushFails?
    ensures var created := MediaStore.Create(rows, MediaCreate(file.filename, file.contentType, file.fileSize),
                                             ToString(Join(uploadsDir, file.filename))).1;
            var r := UploadMedia(rows, uploadsDir, file, p);
            && r.1.Err? && r.1.error.status == 500
            && GetMedia(r.0, created.id) == Ok(created)
            && created.thumbnailPath.None? && created.eventType.None?
  {
  }

  /** `GET /`: the page `OFFSET skip LIMIT limit`, 0 and 100 when not
      given. */
  function ListMedia(rows: seq<Media>, skip: Option<int>, limit: Option<int>): (r: seq<Media>)
    ensures var start := if skip.None? || skip.value < 0 then 0 else skip.value;
            forall k :: 0 <= k < |r| ==> start + k < |rows| && r[k] == rows[start + k]
    ensures limit.None? ==> |r| <= 100
    ensures limit.Some? && limit.value >= 0 ==> |r| <= limit.value
    ensures var start := if skip.None? || skip.value < 0 then 0 else skip.value;
            start + |r| < |rows| ==> |r| == (if limit.None? then 100 else limit.value)
  {
    MediaStore.GetAll(rows, skip.GetOr(DefaultSkip), limit.GetOr(DefaultLimit))
  }

  /** Without parameters the list is the first hundred rows. */
  lemma ListDefaults(rows: seq<Media>)
    ensures |ListMedia(rows, None, None)| == if |rows| < 100 then |rows| else 100
    ensures ListMedia(rows, None, None) == rows[..|ListMedia(rows, None, None)|]
  {
  }

  /** `GET /{media_id}`. */
  function GetMedia(rows: seq<Media>, id: int): (r: Result<Media, HttpError>)
    requires MediaStore.Valid(rows)
    ensures r.Ok? <==> id in MediaStore.ToMap(rows)
    ensures r.Ok? ==> r.value == MediaStore.ToMap(rows)[id]
    ensures r.Err? ==> r.error == HttpError(404, NotFoundDetail)
  {
    match MediaStore.Get(rows, id)
    case Some(m) => Ok(m)
    case None => Err(HttpError(404, NotFoundDetail))
  }

  /** `PATCH /{media_id}`. */
  function PatchMedia(rows: seq<Media>, id: int, u: MediaUpdate): (r: (seq<Media>, Result<Media, HttpError>))
    requires MediaStore.Valid(rows)
    ensures MediaStore.Valid(r.0)
    ensures id !in MediaStore.ToMap(rows) ==> r == (rows, Err(HttpError(404, NotFoundDetail)))
    ensures id in MediaStore.ToMap(rows) ==>
              r.1 == Ok(MediaStore.ApplyUpdate(MediaStore.ToMap(rows)[id], u)) &&
              MediaStore.ToMap(r.0) == MediaStore.ToMap(rows)[id := r.1.value]
  {
    var (rows', updated) := MediaStore.Update(rows, id, u);
    match updated
    case Some(m) => (rows', Ok(m))
    case None => (rows', Err(HttpError(404, NotFoundDetail)))
  }

  /** `DELETE /{media_id}`. */
  function DeleteMedia(rows: seq<Media>, id: int): (r: (seq<Media>, Result<string, HttpError>))
    requires MediaStore.Valid(rows)
    ensures MediaStore.Valid(r.0)
    ensures id !in MediaStore.ToMap(rows) ==> r == (rows, Err(HttpError(404, NotFoundDetail)))
    ensures id in MediaStore.ToMap(rows) ==> r.1 == Ok(Deleted)
    ensures MediaStore.ToMap(r.0) == MediaStore.ToMap(rows) - {id}
  {
    var (rows', found) := MediaStore.Delete(rows, id);
    if found then (rows', Ok(Deleted)) else (rows', Err(HttpError(404, NotFoundDetail)))
  }

  /** After a delete, reading or deleting the id again answers 404. */
  lemma DeleteThenNotFound(rows: seq<Media>, id: int)
    requires MediaStore.Valid(rows)
    ensures GetMedia(DeleteMedia(rows, id).0, id) == Err(HttpError(404, NotFoundDetail))
    ensures DeleteMedia(DeleteMedia(rows, id).0, id).1 == Err(HttpError(404, NotFoundDetail))
  {
  }

  /** What a patch answers is what a read afterwards answers. */
  lemma PatchThenGet(rows: seq<Media>, id: int, u: MediaUpdate)
    requires MediaStore.Valid(rows)
    ensures GetMedia(PatchMedia(rows, id, u).0, id) == PatchMedia(rows, id, u).1
  {
  }

  /** After an upload whose commit went through, reading the new id gives
      the row the upload answered with. */
  lemma UploadThenGet(rows: seq<Media>, uploadsDir: Path, file: UploadFile, p: Processing)
    requires MediaStore.Valid(rows) && WellFormed(uploadsDir)
    requires IsMedia(file.contentType) && Written(p.commit)
    ensures GetMedia(UploadMedia(rows, uploadsDir, file, p).0, UploadMedia(rows, uploadsDir, file, p).1.value.id) ==
            UploadMedia(rows, uploadsDir, file, p).1
  {
  }
}

=== FILE: media_model.dfy ===
/** The `media` table of `models/media.py` and the request bodies of
    `schemas/media.py`. The two timestamps are set by the database clock
    and are not part of this model. */
module MediaModel {
  import opened Wrappers

  /** A calendar date and time, as `datetime` without a time zone. */
  datatype DateTime = DateTime(year: int, month: int, day: int, hour: int, minute: int, second: int)

  /** One row. Nullable columns are `Option`s. */
  datatype Media = Media(
    id: int,
    filename: string,
    filePath: string,
    thumbnailPath: Option<string>,
    mimeType: string,
    fileSize: int,
    width: Option<int>,
    height: Option<int>,
    duration: Option<real>,
    latitude: Option<real>,
    longitude: Option<real>,
    creationDate: Option<DateTime>,
    processedFilePath: Option<string>,
    eventType: Option<string>,
    eventConfidence: Option<real>)

  /** `MediaCreate`. */
  datatype MediaCreate = MediaCreate(filename: string, mimeType: string, fileSize: int)

  /** A field of a partial update: left out of the request, or given a
      value (which may itself be `null`). */
  datatype Patch<+T> = Unset | Set(value: T)

  /** `MediaUpdate`, keeping apart the fields the client sent from those it
      left out, which is what `model_dump(exclude_unset=True)` reads. */
  datatype MediaUpdate = MediaUpdate(
    eventType: Patch<Option<string>>,
    latitude: Patch<Option<real>>,
    longitude: Patch<Option<real>>)

  /** The new value of a field under a patch. */
  function Patched<T>(current: T, p: Patch<T>): (r: T)
    ensures p.Unset? ==> r == current
    ensures p.Set? ==> r == p.value
  {
    match p
    case Unset => current
    case Set(v) => v
  }
}

=== FILE: media_processor.dfy ===
/** The decisions of `services/media_processor.py` around the pixel work:
    where a thumbnail goes and which web path is returned, which transposes
    the EXIF orientation calls for, which video frame is taken and how it
    is scaled, and which metadata keys are filled in. Reading files,
    decoding images and video, and the event classifier are left out; what
    they report is an input. */
module MediaProcessor {
  import opened Wrappers
  import opened Text
  import opened Paths
  import opened MediaModel

  // ---------------------------------------------------------------------
  // Thumbnail naming

  /** `f"thumb_{Path(original).stem}.jpg"`: a single path component that
      `pathlib` reads back as a `.jpg` file whose stem is the original's
      stem behind `thumb_`. */
  function ThumbnailName(originalFilePath: string): (r: string)
    ensures IsComponent(r)
    ensures Suffix(r) == ".jpg"
    ensures Stem(r) == "thumb_" + Stem(Name(FromString(originalFilePath)))
  {
    var original := FromString(originalFilePath);
    var stem := Stem(Name(original));
    StemSuffix(Name(original));
    var r := "thumb_" + stem + ".jpg";
    assert '/' !in r by {
      assert r == "thumb_" + stem + ".jpg";
      assert forall k :: 0 <= k < |r| ==> r[k] == '/' ==> 6 <= k < 6 + |stem| && stem[k - 6] == '/';
    }
    JpgName("thumb_" + stem);
    r
  }

  /** A non-empty string followed by `.jpg` has suffix `.jpg` and the
      string as its stem. */
  lemma JpgName(s: string)
    requires s != ""
    ensures Suffix(s + ".jpg") == ".jpg" && Stem(s + ".jpg") == s
  {
    var n := s + ".jpg";
    assert n[|n| - 1] == 'g' && n[..|n| - 1] == s + ".jp";
    assert (s + ".jp")[|n| - 2] == 'p' && (s + ".jp")[..|n| - 2] == s + ".j";
    assert (s + ".j")[|n| - 3] == 'j' && (s + ".j")[..|n| - 3] == s + ".";
    assert LastIndexOf(s + ".", '.') == |s|;
    assert LastIndexOf(s + ".j", '.') == |s|;
    assert LastIndexOf(s + ".jp", '.') == |s|;
    assert LastIndexOf(n, '.') == |s|;
  }

  /** The web path every successful thumbnail call returns. */
  function WebPath(thumbnailName: string): string {
    "/thumbnails/" + thumbnailName
  }

  /** The thumbnail name depends only on the stem of the original's file
      name: neither its directory nor its extension matters, so `a.png` and
      `a.jpg` share `thumb_a.jpg`. */
  lemma ThumbnailNameFromStem(p: Path, q: Path)
    requires WellFormed(p) && WellFormed(q)
    ensures ThumbnailName(ToString(p)) == "thumb_" + Stem(Name(p)) + ".jpg"
    ensures Stem(Name(p)) == Stem(Name(q)) ==> ThumbnailName(ToString(p)) == ThumbnailName(ToString(q))
  {
    ParseToString(p);
    ParseToString(q);
  }

  /** `_get_thumbnail_path`: the file system path and the name. The file
      sits directly in the thumbnails directory under that name. */
  function ThumbnailPath(thumbnailsDir: Path, originalFilePath: string): (r: (Path, string))
    requires WellFormed(thumbnailsDir)
    ensures r.1 == ThumbnailName(originalFilePath)
    ensures Parent(r.0) == thumbnailsDir && Name(r.0) == r.1
  {
    var name := ThumbnailName(originalFilePath);
    var p := FromString(originalFilePath);
    assert '/' !in Name(p) by {
      if p.parts != [] {
        assert IsComponent(p.parts[|p.parts| - 1]);
      }
    }
    StemNoSlash(Name(p));
    assert name[0] == 't' && name[5] == '_';
    assert '/' !in name;
    JoinComponent(thumbnailsDir, name);
    (Join(thumbnailsDir, name), name)
  }

  /** The stem of a name without a `/` has none either. */
  lemma StemNoSlash(name: string)
    requires '/' !in name
    ensures '/' !in Stem(name)
  {
    StemSuffix(name);
    var s := Stem(name);
    assert forall k :: 0 <= k < |s| ==> s[k] == name[k];
  }

  // ---------------------------------------------------------------------
  // Thumbnail creation

  /** What happens while making an image thumbnail: whether preparing the
      thumbnails directory raises, whether the thumbnail file already
      exists, and whether opening, converting or saving the image raises. */
  datatype ImageRun = ImageRun(dirFails: bool, thumbnailExists: bool, renderFails: bool)

  /** `_create_image_thumbnail`. A thumbnail that is already there is
      reused. A save that leaves no file is only reported, so the web path
      is returned whenever nothing raised. */
  function CreateImageThumbnail(filePath: string, run: ImageRun): (r: Option<string>)
    ensures r.Some? <==> !run.dirFails && (run.thumbnailExists || !run.renderFails)
    ensures r.Some? ==> r.value == WebPath(ThumbnailName(filePath))
  {
    if run.dirFails then None
    else if run.thumbnailExists then Some(WebPath(ThumbnailName(filePath)))
    else if run.renderFails then None
    else Some(WebPath(ThumbnailName(filePath)))
  }

  /** What happens while making a video thumbnail: as for images, plus the
      frame read (its height and width, or `None` when the read failed). */
  datatype VideoRun = VideoRun(dirFails: bool, thumbnailExists: bool, frame: Option<(nat, nat)>, renderFails: bool)

  /** Whether `cv2.resize` accepts the size computed for a `height` by
      `width` frame: the computation must not divide by zero and both sides
      must be positive, since a side truncated to 0 makes the resize raise. */
  predicate Resizable(height: nat, width: nat, maxSide: nat) {
    var dims := ResizeDims(height, width, maxSide);
    dims.Ok? && dims.value.0 > 0 && dims.value.1 > 0
  }

  /** `_create_video_thumbnail`, with `maxSide` the longer thumbnail side.
      Every exception (no frame, a division by zero, a size `cv2.resize`
      refuses, a failed save) ends in `None`. */
  function CreateVideoThumbnail(filePath: string, run: VideoRun, maxSide: nat): (r: Option<string>)
    ensures r.Some? <==> (!run.dirFails && (run.thumbnailExists ||
      (run.frame.Some? && Resizable(run.frame.value.0, run.frame.value.1, maxSide) && !run.renderFails)))
    ensures r.Some? ==> r.value == WebPath(ThumbnailName(filePath))
  {
    if run.dirFails then None
    else if run.thumbnailExists then Some(WebPath(ThumbnailName(filePath)))
    else if run.frame.None? then None
    else
      var dims := ResizeDims(run.frame.value.0, run.frame.value.1, maxSide);
      if dims.Err? then None
      else if dims.value.0 <= 0 || dims.value.1 <= 0 then None
      else if run.renderFails then None
      else Some(WebPath(ThumbnailName(filePath)))
  }

  /** A frame far wider than tall is scaled to a height of 0, which the
      resize refuses, so no thumbnail is made; exactly when the short side
      times `maxSide` stays below the long side. */
  lemma ThinFrameFails(filePath: string, height: nat, width: nat, maxSide: nat)
    requires 0 < maxSide && width > height
    ensures !Resizable(height, width, maxSide) <==> height * maxSide < width
    ensures height * maxSide < width ==>
              CreateVideoThumbnail(filePath, VideoRun(false, false, Some((height, width)), false), maxSide).None?
  {
    var h := ScaledSide(height, width, maxSide);
    assert ResizeDims(height, width, maxSide) == Ok((maxSide, h));
    if h >= 1 {
      MulMono(1, h, width);
    }
  }

  /** `create_thumbnail`: dispatch on the MIME prefix. */
  function CreateThumbnail(filePath: string, mimeType: string, image: ImageRun, video: VideoRun, maxSide: nat): (r: Option<string>)
    ensures StartsWith(mimeType, "image/") ==> r == CreateImageThumbnail(filePath, image)
    ensures !StartsWith(mimeType, "image/") && StartsWith(mimeType, "video/") ==> r == CreateVideoThumbnail(filePath, video, maxSide)
    ensures !StartsWith(mimeType, "image/") && !StartsWith(mimeType, "video/") ==> r.None?
    ensures r.Some? ==> r.value == WebPath(ThumbnailName(filePath))
  {
    if StartsWith(mimeType, "image/") then CreateImageThumbnail(filePath, image)
    else if StartsWith(mimeType, "video/") then CreateVideoThumbnail(filePath, video, maxSide)
    else None
  }

  /** The web path a thumbnail call returns names the file that
      `_get_thumbnail_path` places in the thumbnails directory, so the
      static route serves the thumbnail that was made or reused. */
  lemma WebPathServesThumbnailFile(thumbnailsDir: Path, filePath: string, mimeType: string,
                                   image: ImageRun, video: VideoRun, maxSide: nat)
    requires WellFormed(thumbnailsDir)
    requires CreateThumbnail(filePath, mimeType, image, video, maxSide).Some?
    ensures var file := ThumbnailPath(thumbnailsDir, filePath).0;
            Parent(file) == thumbnailsDir &&
            CreateThumbnail(filePath, mimeType, image, video, maxSide).value == WebPath(Name(file))
  {
  }

  // ---------------------------------------------------------------------
  // EXIF orientation

  /** The `Image.transpose` methods. */
  datatype Transpose = FlipLeftRight | FlipTopBottom | Rotate90 | Rotate180 | Rotate270

  /** The transposes applied for the orientation tag, first to last. A
      missing tag, a zero, 1 and any value outside 2..8 apply none. */
  function OrientationTransposes(orientation: Option<int>): (r: seq<Transpose>)
    ensures r != [] <==> orientation.Some? && 2 <= orientation.value <= 8
    ensures |r| <= 2 && (|r| == 2 <==> orientation == Some(5) || orientation == Some(7))
    ensures (FlipLeftRight in r || FlipTopBottom in r) <==> orientation.Some? && orientation.value in {2, 4, 5, 7}
  {
    if orientation.None? then []
    else match orientation.value
      case 2 => [FlipLeftRight]
      case 3 => [Rotate180]
      case 4 => [FlipTopBottom]
      case 5 => [FlipLeftRight, Rotate90]
      case 6 => [Rotate270]
      case 7 => [FlipLeftRight, Rotate270]
      case 8 => [Rotate90]
      case _ => []
  }

  datatype Side = Top | Bottom | Left | Right

  /** The side a side of the picture ends up on after a transpose;
      rotations are counter-clockwise. */
  function Moved(t: Transpose, s: Side): Side {
    match t
    case FlipLeftRight => (match s case Left => Right case Right => Left case _ => s)
    case FlipTopBottom => (match s case Top => Bottom case Bottom => Top case _ => s)
    case Rotate90 => (match s case Top => Left case Left => Bottom case Bottom => Right case Right => Top)
    case Rotate180 => (match s case Top => Bottom case Bottom => Top case Left => Right case Right => Left)
    case Rotate270 => (match s case Top => Right case Right => Bottom case Bottom => Left case Left => Top)
  }

  /** The side a side ends up on after the transposes `ts`, in order. */
  function MovedBy(ts: seq<Transpose>, s: Side): Side {
    if ts == [] then s else MovedBy(ts[1..], Moved(ts[0], s))
  }

  /** Two transposes in a row. */
  lemma TwoMoves(first: Transpose, second: Transpose)
    ensures forall s :: MovedBy([first, second], s) == Moved(second, Moved(first, s))
  {
    forall s ensures MovedBy([first, second], s) == Moved(second, Moved(first, s)) {
      assert [first, second][1..] == [second];
      assert [second][1..] == [];
      assert MovedBy([second], Moved(first, s)) == MovedBy([], Moved(second, Moved(first, s)));
    }
  }

  /** The meaning of orientation values 1 to 8 in the Exif standard (tag
      0x0112): the visual side the stored image's first row belongs on and
      the visual side its first column belongs on. */
  function ExifMeaning(orientation: int): (Side, Side)
    requires 1 <= orientation <= 8
  {
    match orientation
    case 1 => (Top, Left)
    case 2 => (Top, Right)
    case 3 => (Bottom, Right)
    case 4 => (Bottom, Left)
    case 5 => (Left, Top)
    case 6 => (Right, Top)
    case 7 => (Right, Bottom)
    case _ => (Left, Bottom)
  }

  /** For every orientation value the transposes applied move the stored
      image's top edge (its first row) and left edge (its first column)
      to where the Exif standard says they belong, which fixes the
      picture's position completely; every other value applies nothing. */
  lemma OrientationCorrects(orientation: Option<int>)
    ensures orientation.Some? && 1 <= orientation.value <= 8 ==>
              MovedBy(OrientationTransposes(orientation), Top) == ExifMeaning(orientation.value).0 &&
              MovedBy(OrientationTransposes(orientation), Left) == ExifMeaning(orientation.value).1
    ensures orientation.None? || !(1 <= orientation.value <= 8) ==> OrientationTransposes(orientation) == []
  {
    if orientation.Some? {
      var ts := OrientationTransposes(orientation);
      match orientation.value
      case 5 => TwoMoves(FlipLeftRight, Rotate90);
      case 7 => TwoMoves(FlipLeftRight, Rotate270);
      case _ => if ts != [] { assert ts[1..] == []; }
    }
  }

  // ---------------------------------------------------------------------
  // Video frame choice and scaling

  /** The frame seeked to: `min(int(total * 0.25), total - 1)` when the
      frame count is positive, no seek otherwise. */
  function TargetFrame(totalFrames: int): (r: Option<int>)
    ensures totalFrames <= 0 <==> r.None?
    ensures r.Some? ==> 0 <= r.value <= totalFrames - 1
    ensures r.Some? ==> 4 * r.value <= totalFrames < 4 * r.value + 4
  {
    if totalFrames > 0 then
      var quarter := totalFrames / 4;
      Some(if quarter <= totalFrames - 1 then quarter else totalFrames - 1)
    else None
  }

  /** The `min` never cuts in: the target is always the quarter point. */
  lemma TargetIsQuarter(totalFrames: int)
    requires totalFrames > 0
    ensures TargetFrame(totalFrames) == Some(totalFrames / 4)
  {
  }

  /** The thumbnail size for a `height` by `width` frame as `(new width,
      new height)`: the longer side (the width only when strictly longer)
      becomes `maxSide` and the other is scaled by the same factor and
      truncated. A 0 by 0 frame divides by zero. */
  function ResizeDims(height: nat, width: nat, maxSide: nat): (r: Result<(int, int), string>)
    ensures r.Err? <==> height == 0 && width == 0
    ensures width > height ==> (r.Ok? && r.value.0 == maxSide && 0 <= r.value.1 <= maxSide &&
      r.value.1 * width <= height * maxSide < (r.value.1 + 1) * width)
    ensures 0 < height && width <= height ==> (r.Ok? && r.value.1 == maxSide && 0 <= r.value.0 <= maxSide &&
      r.value.0 * height <= width * maxSide < (r.value.0 + 1) * height)
  {
    if width > height then
      Ok((maxSide, ScaledSide(height, width, maxSide)))
    else if height == 0 then Err("ZeroDivisionError")
    else Ok((ScaledSide(width, height, maxSide), maxSide))
  }

  /** `int(short * (maxSide / long))` for `short <= long`. */
  function ScaledSide(short: nat, long: nat, maxSide: nat): (r: int)
    requires 0 < long && short <= long
    ensures 0 <= r <= maxSide
    ensures r * long <= short * maxSide < (r + 1) * long
  {
    var x := (short as real) * ((maxSide as real) / (long as real));
    assert x == (short * maxSide) as real / (long as real);
    FloorBounds(short * maxSide, long);
    MulMono(short, long, maxSide);
    var f := x.Floor;
    assert f <= maxSide by {
      if f > maxSide { MulMono(maxSide + 1, f, long); }
    }
    f
  }

  lemma MulMono(a: int, b: int, c: int)
    requires a <= b && c >= 0
    ensures a * c <= b * c
  {
  }

  lemma MulStrict(a: real, b: real, c: real)
    requires a < b && c > 0.0
    ensures a * c < b * c
  {
  }

  /** The truncated quotient `f` of `q / l` satisfies `f*l <= q < (f+1)*l`. */
  lemma FloorBounds(q: int, l: int)
    requires l > 0
    ensures var f := (q as real / l as real).Floor; f * l <= q < (f + 1) * l
  {
    var x := q as real / l as real;
    var f := x.Floor;
    var lo, hi := f as real, f as real + 1.0;
    assert x * (l as real) == q as real;
    if lo < x { MulStrict(lo, x, l as real); }
    MulStrict(x, hi, l as real);
    assert (f * l) as real == lo * (l as real);
    assert ((f + 1) * l) as real == hi * (l as real);
    assert (q as real) < ((f + 1) * l) as real;
  }

  // ---------------------------------------------------------------------
  // Metadata

  /** An EXIF rational. */
  datatype Ratio = Ratio(num: int, den: int)

  /** `float(r.num) / float(r.den)`; a zero denominator raises. */
  function RatioValue(r: Ratio): (v: Option<real>)
    ensures v.Some? <==> r.den != 0
    ensures v.Some? ==> v.value * (r.den as real) == r.num as real
  {
    if r.den == 0 then None else Some((r.num as real) / (r.den as real))
  }

  /** `_convert_to_degrees`: degrees, minutes and seconds to degrees. */
  function ToDegrees(dms: (Ratio, Ratio, Ratio)): (r: Option<real>)
    ensures r.Some? <==> dms.0.den != 0 && dms.1.den != 0 && dms.2.den != 0
    ensures r.Some? ==> r.value == RatioValue(dms.0).value + RatioValue(dms.1).value / 60.0 + RatioValue(dms.2).value / 3600.0
  {
    var d := RatioValue(dms.0);
    var m := RatioValue(dms.1);
    var s := RatioValue(dms.2);
    if d.None? || m.None? || s.None? then None
    else Some(d.value + m.value / 60.0 + s.value / 3600.0)
  }

  /** With whole degrees, whole minutes below 60 and seconds below 60 the
      result lies in `[degrees, degrees + 1)`: minutes and seconds only add
      a fraction of a degree. */
  lemma DegreesWithinDegree(dms: (Ratio, Ratio, Ratio), degrees: int, minutes: int)
    requires dms.0 == Ratio(degrees, 1) && dms.1 == Ratio(minutes, 1) && 0 <= minutes <= 59
    requires dms.2.den > 0 && 0 <= dms.2.num < 60 * dms.2.den
    ensures ToDegrees(dms).Some?
    ensures degrees as real <= ToDegrees(dms).value < degrees as real + 1.0
  {
    SecondsBelowMinute(dms.2);
    assert RatioValue(dms.0).value == degrees as real;
    assert RatioValue(dms.1).value == minutes as real;
  }

  /** Seconds in `[0, 60)` as a fraction stay in `[0, 60)` as a value. */
  lemma SecondsBelowMinute(r: Ratio)
    requires r.den > 0 && 0 <= r.num < 60 * r.den
    ensures 0.0 <= RatioValue(r).value < 60.0
  {
    var s := RatioValue(r).value;
    var den := r.den as real;
    assert s * den == r.num as real;
    assert (60 * r.den) as real == 60.0 * den;
    if s >= 60.0 {
      MulWeak(60.0, s, den);
      assert false;
    }
    if s < 0.0 {
      MulStrict(s, 0.0, den);
      assert false;
    }
  }

  lemma MulWeak(a: real, b: real, c: real)
    requires a <= b && c >= 0.0
    ensures a * c <= b * c
  {
  }

  /** The EXIF tags read: the GPS coordinates with their hemisphere
      references and the original date, each when present. */
  datatype ExifTags = ExifTags(
    latitude: Option<(Ratio, Ratio, Ratio)>,
    longitude: Option<(Ratio, Ratio, Ratio)>,
    latitudeRef: Option<string>,
    longitudeRef: Option<string>,
    dateTimeOriginal: Option<string>)

  /** Applies a hemisphere reference: negative when its first character is
      `negative`; an empty reference raises. */
  function Hemisphere(magnitude: real, reference: Option<string>, negative: char): (r: Option<real>)
    ensures reference.Some? && reference.value == "" <==> r.None?
    ensures r.Some? ==> (r.value == -magnitude <==> reference.Some? && reference.value[0] == negative) || magnitude == 0.0
    ensures r.Some? ==> r.value == magnitude || r.value == -magnitude
  {
    if reference.None? then Some(magnitude)
    else if reference.value == "" then None
    else if reference.value[0] == negative then Some(-magnitude)
    else Some(magnitude)
  }

  /** The GPS block: `Ok(None)` when a coordinate tag is missing, `Err`
      when it raises. */
  function GpsCoordinates(tags: ExifTags): (r: Result<Option<(real, real)>, string>)
    ensures tags.latitude.None? || tags.longitude.None? ==> r == Ok(None)
    ensures tags.latitude.Some? && tags.longitude.Some? ==>
              (r.Err? <==> ToDegrees(tags.latitude.value).None? || ToDegrees(tags.longitude.value).None? ||
                           tags.latitudeRef == Some("") || tags.longitudeRef == Some(""))
    ensures r.Ok? ==> (r.value.Some? <==> tags.latitude.Some? && tags.longitude.Some?)
    ensures r.Ok? && r.value.Some? ==>
              tags.latitude.Some? && tags.longitude.Some? &&
              ToDegrees(tags.latitude.value).Some? && ToDegrees(tags.longitude.value).Some? &&
              var lat := ToDegrees(tags.latitude.value).value;
              var lon := ToDegrees(tags.longitude.value).value;
              Hemisphere(lat, tags.latitudeRef, 'S') == Some(r.value.value.0) &&
              Hemisphere(lon, tags.longitudeRef, 'W') == Some(r.value.value.1)
  {
    if tags.latitude.None? || tags.longitude.None? then Ok(None)
    else
      var lat := ToDegrees(tags.latitude.value);
      var lon := ToDegrees(tags.longitude.value);
      if lat.None? || lon.None? then Err("ZeroDivisionError")
      else
        var signedLat := Hemisphere(lat.value, tags.latitudeRef, 'S');
        var signedLon := Hemisphere(lon.value, tags.longitudeRef, 'W');
        if signedLat.None? || signedLon.None? then Err("IndexError")
        else Ok(Some((signedLat.value, signedLon.value)))
  }

  /** A coordinate of non-zero magnitude ends up south (negative) exactly
      when its reference starts with `S`, and west exactly when it starts
      with `W`. */
  lemma HemisphereSign(tags: ExifTags)
    requires GpsCoordinates(tags).Ok? && GpsCoordinates(tags).value.Some?
    requires ToDegrees(tags.latitude.value).value > 0.0 && ToDegrees(tags.longitude.value).value > 0.0
    ensures GpsCoordinates(tags).value.value.0 < 0.0 <==> tags.latitudeRef.Some? && tags.latitudeRef.value[0] == 'S'
    ensures GpsCoordinates(tags).value.value.1 < 0.0 <==> tags.longitudeRef.Some? && tags.longitudeRef.value[0] == 'W'
  {
  }

  /** The keys `extract_metadata` fills in, each left out or set. */
  datatype Metadata = Metadata(
    width: Patch<int>,
    height: Patch<int>,
    duration: Patch<Option<real>>,
    latitude: Patch<real>,
    longitude: Patch<real>,
    creationDate: Patch<DateTime>)

  const NoMetadata: Metadata := Metadata(Unset, Unset, Unset, Unset, Unset, Unset)

  /** What reading an image gives: its EXIF tags (`None` when the file
      cannot be read) and its size as width and height (`None` when it
      cannot be opened as an image). */
  datatype ImageInfo = ImageInfo(tags: Option<ExifTags>, size: Option<(nat, nat)>)

  /** `_extract_image_metadata`. An error stops the collection but keeps
      what was already collected; a date that does not parse is skipped on
      its own. `parseDate` is `strptime` with `%Y:%m:%d %H:%M:%S`. */
  function ImageMetadata(info: ImageInfo, parseDate: string -> Option<DateTime>): (r: Metadata)
    ensures info.tags.None? || info.size.None? ==> r == NoMetadata
    ensures info.tags.Some? && info.size.Some? ==>
              r.width == Set(info.size.value.0) && r.height == Set(info.size.value.1)
    ensures r.latitude.Set? <==> r.longitude.Set?
    ensures r.latitude.Set? ==> GpsCoordinates(info.tags.value) == Ok(Some((r.latitude.value, r.longitude.value)))
    ensures r.creationDate.Set? ==> (info.tags.value.dateTimeOriginal.Some? &&
      parseDate(info.tags.value.dateTimeOriginal.value) == Some(r.creationDate.value))
    ensures info.tags.Some? && info.size.Some? && GpsCoordinates(info.tags.value).Ok? &&
            GpsCoordinates(info.tags.value).value.Some? ==>
              r.latitude == Set(GpsCoordinates(info.tags.value).value.value.0) &&
              r.longitude == Set(GpsCoordinates(info.tags.value).value.value.1)
    ensures info.tags.Some? && info.size.Some? && GpsCoordinates(info.tags.value).Ok? &&
            info.tags.value.dateTimeOriginal.Some? && parseDate(info.tags.value.dateTimeOriginal.value).Some? ==>
              r.creationDate == Set(parseDate(info.tags.value.dateTimeOriginal.value).value)
    ensures r.duration == Unset
  {
    if info.tags.None? || info.size.None? then NoMetadata
    else
      var tags := info.tags.value;
      var sized := NoMetadata.(width := Set(info.size.value.0), height := Set(info.size.value.1));
      match GpsCoordinates(tags)
      case Err(_) => sized
      case Ok(gps) =>
        var located := if gps.Some? then sized.(latitude := Set(gps.value.0), longitude := Set(gps.value.1)) else sized;
        if tags.dateTimeOriginal.Some? && parseDate(tags.dateTimeOriginal.value).Some? then
          located.(creationDate := Set(parseDate(tags.dateTimeOriginal.value).value))
        else located
  }

  /** A zero denominator in a coordinate loses the position and the date
      but keeps the size. */
  lemma BadCoordinateKeepsOnlySize(info: ImageInfo, parseDate: string -> Option<DateTime>)
    requires info.tags.Some? && info.size.Some?
    requires GpsCoordinates(info.tags.value).Err?
    ensures ImageMetadata(info, parseDate) ==
              NoMetadata.(width := Set(info.size.value.0), height := Set(info.size.value.1))
  {
  }

  /** A readable image whose GPS block has non-zero denominators and
      non-empty references has its position recorded exactly: the
      degrees of each coordinate, negated for `S` and `W`. */
  lemma ValidGpsRecorded(info: ImageInfo, parseDate: string -> Option<DateTime>)
    requires info.tags.Some? && info.size.Some?
    requires var t := info.tags.value;
             t.latitude.Some? && t.longitude.Some? &&
             t.latitude.value.0.den != 0 && t.latitude.value.1.den != 0 && t.latitude.value.2.den != 0 &&
             t.longitude.value.0.den != 0 && t.longitude.value.1.den != 0 && t.longitude.value.2.den != 0 &&
             t.latitudeRef != Some("") && t.longitudeRef != Some("")
    ensures var t := info.tags.value;
            var lat := ToDegrees(t.latitude.value).value;
            var lon := ToDegrees(t.longitude.value).value;
            var m := ImageMetadata(info, parseDate);
            m.latitude == Set(if t.latitudeRef.Some? && t.latitudeRef.value[0] == 'S' then -lat else lat) &&
            m.longitude == Set(if t.longitudeRef.Some? && t.longitudeRef.value[0] == 'W' then -lon else lon)
  {
  }

  /** What the video reader reports (`None` when reading raises): frame
      width and height, frames per second and frame count. A file it
      cannot open reports zeros. */
  datatype VideoInfo = VideoInfo(width: int, height: int, fps: real, frameCount: int)

  /** `_extract_video_metadata`: the duration is `frames / fps`, or an
      explicit `None` when the rate is not positive. */
  function VideoMetadata(info: Option<VideoInfo>): (r: Metadata)
    ensures info.None? ==> r == NoMetadata
    ensures info.Some? ==> r.width == Set(info.value.width) && r.height == Set(info.value.height) && r.duration.Set?
    ensures info.Some? && info.value.fps > 0.0 ==>
              r.duration.value.Some? && r.duration.value.value * info.value.fps == info.value.frameCount as real
    ensures info.Some? && info.value.fps <= 0.0 ==> r.duration == Set(None)
    ensures r.latitude == Unset && r.longitude == Unset && r.creationDate == Unset
  {
    if info.None? then NoMetadata
    else
      var v := info.value;
      NoMetadata.(width := Set(v.width), height := Set(v.height),
                  duration := Set(if v.fps > 0.0 then Some(v.frameCount as real / v.fps) else None))
  }

  /** `extract_metadata`: dispatch on the MIME prefix; other types give no
      metadata. */
  function ExtractMetadata(mimeType: string, image: ImageInfo, video: Option<VideoInfo>,
                           parseDate: string -> Option<DateTime>): (r: Metadata)
    ensures StartsWith(mimeType, "image/") ==> r == ImageMetadata(image, parseDate)
    ensures !StartsWith(mimeType, "image/") && StartsWith(mimeType, "video/") ==> r == VideoMetadata(video)
    ensures !StartsWith(mimeType, "image/") && !StartsWith(mimeType, "video/") ==> r == NoMetadata
  {
    if StartsWith(mimeType, "image/") then ImageMetadata(image, parseDate)
    else if StartsWith(mimeType, "video/") then VideoMetadata(video)
    else NoMetadata
  }

  /** The two readers fill disjoint kinds of keys beyond the size: images
      never a duration, videos never a position or a date. A video read at
      a positive rate records a duration that gives back its frame count. */
  lemma MetadataKinds(mimeType: string, image: ImageInfo, video: Option<VideoInfo>,
                      parseDate: string -> Option<DateTime>)
    ensures StartsWith(mimeType, "image/") ==> ExtractMetadata(mimeType, image, video, parseDate).duration.Unset?
    ensures !StartsWith(mimeType, "image/") ==>
              var m := ExtractMetadata(mimeType, image, video, parseDate);
              m.latitude.Unset? && m.longitude.Unset? && m.creationDate.Unset?
    ensures !StartsWith(mimeType, "image/") && StartsWith(mimeType, "video/") && video.Some? && video.value.fps > 0.0 ==>
              var d := ExtractMetadata(mimeType, image, video, parseDate).duration;
              d.Set? && d.value.Some? && d.value.value * video.value.fps == video.value.frameCount as real
  {
  }
}

=== FILE: media_store.dfy ===
/** `crud/media.py` over an in-memory table. The table is the sequence of
    rows in the order SQLite returns them without `ORDER BY`: ascending
    rowid, which for an `INTEGER PRIMARY KEY` is the id. Every contract is
    also stated on the map from id to row the table stands for. */
module MediaStore {
  import opened Wrappers
  import opened MediaModel

  /** Ids are positive and strictly ascending, so no two rows share one. */
  predicate Valid(rows: seq<Media>) {
    && (forall i :: 0 <= i < |rows| ==> rows[i].id >= 1)
    && (forall i, j :: 0 <= i < j < |rows| ==> rows[i].id < rows[j].id)
  }

  /** The map from id to row that a valid table stands for. */
  function ToMap(rows: seq<Media>): (m: map<int, Media>)
    requires Valid(rows)
    ensures forall i :: 0 <= i < |rows| ==> rows[i].id in m && m[rows[i].id] == rows[i]
  {
    if rows == [] then map[]
    else
      var last := rows[|rows| - 1];
      ToMap(rows[..|rows| - 1])[last.id := last]
  }

  /** The ids of the map are exactly the ids of the rows. */
  lemma {:induction false} ToMapKeys(rows: seq<Media>, id: int)
    requires Valid(rows)
    ensures id in ToMap(rows) <==> exists i :: 0 <= i < |rows| && rows[i].id == id
  {
    if rows != [] {
      var n := |rows| - 1;
      ToMapKeys(rows[..n], id);
      if id in ToMap(rows[..n]) {
        var i :| 0 <= i < n && rows[..n][i].id == id;
        assert rows[i].id == id;
      }
    }
  }

  /** The position of the row with id `id`, or -1. */
  function IndexOf(rows: seq<Media>, id: int): (i: int)
    ensures -1 <= i < |rows|
    ensures 0 <= i ==> rows[i].id == id
    ensures i < 0 ==> forall j :: 0 <= j < |rows| ==> rows[j].id != id
  {
    if rows == [] then -1
    else if rows[|rows| - 1].id == id then |rows| - 1
    else IndexOf(rows[..|rows| - 1], id)
  }

  /** `get_media`. */
  function Get(rows: seq<Media>, id: int): (r: Option<Media>)
    requires Valid(rows)
    ensures r.Some? <==> id in ToMap(rows)
    ensures r.Some? ==> r.value == ToMap(rows)[id]
  {
    var i := IndexOf(rows, id);
    ToMapKeys(rows, id);
    if i < 0 then None else Some(rows[i])
  }

  /** `get_all_media`: `OFFSET skip LIMIT limit` in SQLite, where a
      negative offset counts as 0 and a negative limit means no limit. */
  function GetAll(rows: seq<Media>, skip: int, limit: int): (r: seq<Media>)
    ensures limit >= 0 ==> |r| <= limit
    ensures var start := if skip < 0 then 0 else skip;
            forall k :: 0 <= k < |r| ==> start + k < |rows| && r[k] == rows[start + k]
    ensures var start := if skip < 0 then 0 else skip;
            start + |r| < |rows| ==> 0 <= limit == |r|
  {
    var start := if skip < 0 then 0 else if skip > |rows| then |rows| else skip;
    var end := if limit < 0 || start + limit > |rows| then |rows| else start + limit;
    rows[start..end]
  }

  /** Consecutive pages add up to the longer page: paging through the
      table visits every row once, in order. */
  lemma PagesConcatenate(rows: seq<Media>, skip: nat, n: nat, m: nat)
    ensures GetAll(rows, skip, n) + GetAll(rows, skip + n, m) == GetAll(rows, skip, n + m)
  {
  }

  /** Without a limit from the start, the list is the whole table. */
  lemma WholeTable(rows: seq<Media>)
    ensures GetAll(rows, 0, -1) == rows
    ensures GetAll(rows, -5, -1) == rows
  {
  }

  /** The id SQLite gives the next row: one more than the largest, 1 in an
      empty table. */
  function NextId(rows: seq<Media>): (id: int)
    requires Valid(rows)
    ensures id >= 1
    ensures forall i :: 0 <= i < |rows| ==> rows[i].id < id
    ensures rows != [] ==> id == rows[|rows| - 1].id + 1
  {
    if rows == [] then 1 else rows[|rows| - 1].id + 1
  }

  /** `create_media`: a row with the given file data under a fresh id and
      every other column empty. */
  function Create(rows: seq<Media>, media: MediaCreate, filePath: string): (r: (seq<Media>, Media))
    requires Valid(rows)
    ensures Valid(r.0)
    ensures r.1.id !in ToMap(rows)
    ensures ToMap(r.0) == ToMap(rows)[r.1.id := r.1]
    ensures r.1 == Media(r.1.id, media.filename, filePath, None, media.mimeType, media.fileSize,
                         None, None, None, None, None, None, None, None, None)
  {
    var row := Media(NextId(rows), media.filename, filePath, None, media.mimeType, media.fileSize,
                     None, None, None, None, None, None, None, None, None);
    var rows' := rows + [row];
    assert row.id !in ToMap(rows) && ToMap(rows') == ToMap(rows)[row.id := row] by {
      ToMapKeys(rows, row.id);
      MapAppend(rows, row);
    }
    (rows', row)
  }

  lemma MapAppend(rows: seq<Media>, row: Media)
    requires Valid(rows) && Valid(rows + [row])
    ensures ToMap(rows + [row]) == ToMap(rows)[row.id := row]
  {
    assert (rows + [row])[..|rows|] == rows;
  }

  /** `update_media`'s change to one row: the fields the request set are
      overwritten, a field set to `null` included. */
  function ApplyUpdate(m: Media, u: MediaUpdate): (r: Media)
    ensures r.(eventType := m.eventType, latitude := m.latitude, longitude := m.longitude) == m
    ensures r.eventType == Patched(m.eventType, u.eventType)
    ensures r.latitude == Patched(m.latitude, u.latitude)
    ensures r.longitude == Patched(m.longitude, u.longitude)
  {
    m.(eventType := Patched(m.eventType, u.eventType),
       latitude := Patched(m.latitude, u.latitude),
       longitude := Patched(m.longitude, u.longitude))
  }

  /** An update that sets nothing changes nothing, and applying the same
      update twice is applying it once. */
  lemma UpdateIdempotent(m: Media, u: MediaUpdate)
    ensures ApplyUpdate(m, MediaUpdate(Unset, Unset, Unset)) == m
    ensures ApplyUpdate(ApplyUpdate(m, u), u) == ApplyUpdate(m, u)
  {
  }

  /** `update_media`: `None` and no change when the id is absent. */
  function Update(rows: seq<Media>, id: int, u: MediaUpdate): (r: (seq<Media>, Option<Media>))
    requires Valid(rows)
    ensures Valid(r.0)
    ensures id !in ToMap(rows) ==> r == (rows, None)
    ensures id in ToMap(rows) ==> r.1 == Some(ApplyUpdate(ToMap(rows)[id], u)) &&
                                  ToMap(r.0) == ToMap(rows)[id := r.1.value]
  {
    var i := IndexOf(rows, id);
    ToMapKeys(rows, id);
    if i < 0 then (rows, None)
    else
      var row := ApplyUpdate(rows[i], u);
      (Commit(rows, row), Some(row))
  }

  /** `db.commit()` of a row changed in the session: the stored row with
      that id becomes the changed one. */
  function Commit(rows: seq<Media>, row: Media): (r: seq<Media>)
    requires Valid(rows) && row.id in ToMap(rows)
    ensures Valid(r)
    ensures ToMap(r) == ToMap(rows)[row.id := row]
  {
    var i := IndexOf(rows, row.id);
    ToMapKeys(rows, row.id);
    MapReplace(rows, i, row);
    rows[i := row]
  }

  lemma ValidReplace(rows: seq<Media>, i: int, row: Media)
    requires Valid(rows) && 0 <= i < |rows| && row.id == rows[i].id
    ensures Valid(rows[i := row])
  {
  }

  lemma {:induction false} MapReplace(rows: seq<Media>, i: int, row: Media)
    requires Valid(rows) && 0 <= i < |rows| && row.id == rows[i].id
    ensures Valid(rows[i := row])
    ensures ToMap(rows[i := row]) == ToMap(rows)[row.id := row]
  {
    ValidReplace(rows, i, row);
    var n := |rows| - 1;
    var rows' := rows[i := row];
    var prefix, last := rows[..n], rows[n];
    if i < n {
      assert rows'[..n] == prefix[i := row];
      MapReplace(prefix, i, row);
      ReplaceBelowLast(rows, i, row);
    } else {
      assert rows'[..n] == prefix;
      var base := ToMap(prefix);
      assert ToMap(rows') == base[row.id := row];
      assert base[last.id := last][row.id := row] == base[row.id := row];
    }
  }

  /** The step of `MapReplace` for a row below the last one. */
  lemma ReplaceBelowLast(rows: seq<Media>, i: int, row: Media)
    requires Valid(rows) && 0 <= i < |rows| - 1 && row.id == rows[i].id
    requires Valid(rows[i := row]) && Valid(rows[..|rows| - 1][i := row])
    requires ToMap(rows[..|rows| - 1][i := row]) == ToMap(rows[..|rows| - 1])[row.id := row]
    ensures ToMap(rows[i := row]) == ToMap(rows)[row.id := row]
  {
    var n := |rows| - 1;
    var rows', prefix, last := rows[i := row], rows[..n], rows[n];
    assert rows'[..n] == prefix[i := row];
    var base := ToMap(prefix);
    assert ToMap(rows') == base[row.id := row][last.id := last];
    assert last.id != row.id;
    assert base[row.id := row][last.id := last] == base[last.id := last][row.id := row];
  }

  /** `delete_media`: `true` and the row gone when the id is present,
      `false` and no change otherwise. */
  function Delete(rows: seq<Media>, id: int): (r: (seq<Media>, bool))
    requires Valid(rows)
    ensures Valid(r.0)
    ensures r.1 <==> id in ToMap(rows)
    ensures ToMap(r.0) == ToMap(rows) - {id}
    ensures !r.1 ==> r.0 == rows
  {
    var i := IndexOf(rows, id);
    ToMapKeys(rows, id);
    if i < 0 then
      assert ToMap(rows) - {id} == ToMap(rows);
      (rows, false)
    else
      var rest := rows[..i] + rows[i + 1..];
      MapRemove(rows, i, rest);
      (rest, true)
  }

  /** `rest` is `rows` without row `i`, the rest in order. */
  predicate Removed(rows: seq<Media>, i: int, rest: seq<Media>) {
    && 0 <= i < |rows|
    && |rest| == |rows| - 1
    && forall k :: 0 <= k < |rest| ==> rest[k] == rows[if k < i then k else k + 1]
  }

  lemma ValidRemove(rows: seq<Media>, i: int, rest: seq<Media>)
    requires Valid(rows) && Removed(rows, i, rest)
    ensures Valid(rest)
  {
  }

  /** Removing row `i` removes its id from the map and nothing else. */
  lemma MapRemove(rows: seq<Media>, i: int, rest: seq<Media>)
    requires Valid(rows) && Removed(rows, i, rest)
    ensures Valid(rest)
    ensures ToMap(rest) == ToMap(rows) - {rows[i].id}
  {
    ValidRemove(rows, i, rest);
    var a, b := ToMap(rest), ToMap(rows) - {rows[i].id};
    forall id ensures id in a <==> id in b {
      RemovedKeys(rows, i, rest, id);
    }
    forall id | id in a ensures a[id] == b[id] {
      ToMapKeys(rest, id);
    }
  }

  lemma RemovedKeys(rows: seq<Media>, i: int, rest: seq<Media>, id: int)
    requires Valid(rows) && Removed(rows, i, rest) && Valid(rest)
    ensures id in ToMap(rest) <==> id in ToMap(rows) && id != rows[i].id
  {
    ToMapKeys(rest, id);
    ToMapKeys(rows, id);
    if id in ToMap(rows) && id != rows[i].id {
      KeptKey(rows, i, rest, id);
    }
    if id in ToMap(rest) {
      GoneKey(rows, i, rest, id);
    }
  }

  lemma KeptKey(rows: seq<Media>, i: int, rest: seq<Media>, id: int)
    requires Removed(rows, i, rest)
    requires exists j :: 0 <= j < |rows| && rows[j].id == id
    requires id != rows[i].id
    ensures exists k :: 0 <= k < |rest| && rest[k].id == id
  {
    var j :| 0 <= j < |rows| && rows[j].id == id;
    assert rest[if j < i then j else j - 1] == rows[j];
  }

  lemma GoneKey(rows: seq<Media>, i: int, rest: seq<Media>, id: int)
    requires Valid(rows) && Removed(rows, i, rest)
    requires exists k :: 0 <= k < |rest| && rest[k].id == id
    ensures exists j :: 0 <= j < |rows| && rows[j].id == id
    ensures id != rows[i].id
  {
    var k :| 0 <= k < |rest| && rest[k].id == id;
    var j := if k < i then k else k + 1;
    assert rest[k] == rows[j];
  }

  /** After a delete, getting the id finds nothing. When the deleted row
      had the largest id, the next id is at most that id, so a row created
      next may be given it again. */
  lemma DeleteThenGet(rows: seq<Media>, id: int)
    requires Valid(rows)
    ensures Get(Delete(rows, id).0, id).None?
    ensures rows != [] && id == rows[|rows| - 1].id ==> NextId(Delete(rows, id).0) <= id
  {
    var rest := Delete(rows, id).0;
    if rows != [] && id == rows[|rows| - 1].id && rest != [] {
      var last := rest[|rest| - 1];
      assert last.id in ToMap(rest);
      ToMapKeys(rows, last.id);
      var j :| 0 <= j < |rows| && rows[j].id == last.id;
      assert j != |rows| - 1;
    }
  }
}

=== FILE: paths.dfy ===
/** The slice of Python's `pathlib.PurePosixPath` the backend and the setup
    script rely on: building a path from a string, `/` (joining), `str()`,
    `.name`, `.parent`, `.stem` and `.suffix`. A path is an absolute flag and
    its list of components; `pathlib` drops empty and `.` components. */
module Paths {
  import opened Text

  datatype Path = Path(absolute: bool, parts: seq<string>)

  /** A component `pathlib` keeps as it is: non-empty, not `.`, no `/`. */
  predicate IsComponent(c: string) {
    c != "" && c != "." && '/' !in c
  }

  /** Every component is one `pathlib` would keep. */
  predicate WellFormed(p: Path) {
    forall k :: 0 <= k < |p.parts| ==> IsComponent(p.parts[k])
  }

  /** The components that survive normalisation, in order. */
  function Normalize(pieces: seq<string>): (r: seq<string>)
    ensures forall k :: 0 <= k < |r| ==> r[k] in pieces && r[k] != "" && r[k] != "."
  {
    if pieces == [] then []
    else if pieces[0] == "" || pieces[0] == "." then Normalize(pieces[1..])
    else [pieces[0]] + Normalize(pieces[1..])
  }

  /** `Path(s)`. */
  function FromString(s: string): (p: Path)
    ensures WellFormed(p)
  {
    var pieces := Split(s, '/');
    assert forall k :: 0 <= k < |Normalize(pieces)| ==> '/' !in Normalize(pieces)[k];
    Path(|s| > 0 && s[0] == '/', Normalize(pieces))
  }

  /** `str(p)`. */
  function ToString(p: Path): string {
    if p.absolute then "/" + JoinWith(p.parts, "/")
    else if p.parts == [] then "."
    else JoinWith(p.parts, "/")
  }

  /** `p / s`: `s` is parsed as a path, and an absolute one replaces `p`.
      A plain component is appended as it is, which is what parsing it
      gives (`JoinComponentAppends`). */
  function Join(p: Path, s: string): (r: Path)
    requires WellFormed(p)
    ensures WellFormed(r)
  {
    if IsComponent(s) then Path(p.absolute, p.parts + [s])
    else
      var q := FromString(s);
      if q.absolute then q else Path(p.absolute, p.parts + q.parts)
  }

  /** Appending a plain component is the general rule applied to it. */
  lemma JoinComponentAppends(p: Path, s: string)
    requires WellFormed(p) && IsComponent(s)
    ensures var q := FromString(s);
            Join(p, s) == (if q.absolute then q else Path(p.absolute, p.parts + q.parts))
  {
    ComponentPath(s);
  }

  /** `p.name`: the last component, or the empty string. */
  function Name(p: Path): string {
    if p.parts == [] then "" else p.parts[|p.parts| - 1]
  }

  /** `p.parent`: `p` without its last component (a root is its own parent). */
  function Parent(p: Path): Path {
    if p.parts == [] then p else Path(p.absolute, p.parts[..|p.parts| - 1])
  }

  /** Index of the last `c` in `s`, or -1. */
  function LastIndexOf(s: string, c: char): (i: int)
    ensures -1 <= i < |s|
    ensures 0 <= i ==> s[i] == c
    ensures forall j :: i < j < |s| ==> s[j] != c
  {
    if s == [] then -1
    else if s[|s| - 1] == c then |s| - 1
    else LastIndexOf(s[..|s| - 1], c)
  }

  /** `.suffix` of a name: from its last dot, unless that dot is the first or
      the last character. */
  function Suffix(name: string): string {
    var i := LastIndexOf(name, '.');
    if 0 < i < |name| - 1 then name[i..] else ""
  }

  /** `.stem` of a name: the name without its suffix. */
  function Stem(name: string): string {
    var i := LastIndexOf(name, '.');
    if 0 < i < |name| - 1 then name[..i] else name
  }

  /** A name is its stem followed by its suffix, and the stem keeps the
      leading character. */
  lemma StemSuffix(name: string)
    ensures Stem(name) + Suffix(name) == name
    ensures name != "" ==> Stem(name) != "" && Stem(name)[0] == name[0]
    ensures Suffix(name) == "" || Suffix(name)[0] == '.'
    ensures Suffix(name) != "" ==> '.' !in Suffix(name)[1..]
  {
  }

  /** A single component parses to a one-component relative path. */
  lemma ComponentPath(c: string)
    requires IsComponent(c)
    ensures FromString(c) == Path(false, [c])
  {
    SplitNoSeparator(c, '/');
    assert Normalize([c][1..]) == [];
    assert Normalize([c]) == [c];
    assert c[0] in c;
    assert !(|c| > 0 && c[0] == '/');
  }

  /** `(p / c).name == c` and `(p / c).parent == p` for a plain component;
      the relations the storage-directory layout is built on. */
  lemma JoinComponent(p: Path, c: string)
    requires WellFormed(p) && IsComponent(c)
    ensures Name(Join(p, c)) == c
    ensures Parent(Join(p, c)) == p
  {
    assert (p.parts + [c])[..|p.parts|] == p.parts;
  }

  lemma NormalizeKeeps(pieces: seq<string>)
    requires forall k :: 0 <= k < |pieces| ==> IsComponent(pieces[k])
    ensures Normalize(pieces) == pieces
  {
  }

  /** Rendering a well-formed path and parsing it back gives the same path. */
  lemma ParseToString(p: Path)
    requires WellFormed(p)
    ensures FromString(ToString(p)) == p
  {
    NormalizeKeeps(p.parts);
    if p.absolute {
      ParseAbsolute(p);
    } else {
      ParseRelative(p);
    }
  }

  lemma {:induction false} ParseAbsolute(p: Path)
    requires WellFormed(p) && p.absolute && Normalize(p.parts) == p.parts
    ensures FromString(ToString(p)) == p
  {
    var s := ToString(p);
    if p.parts == [] {
      assert s == "/";
      assert Split(s[1..], '/') == [""];
    } else {
      var body := JoinWith(p.parts, "/");
      SplitJoin(p.parts, '/');
      SplitAfterPiece("", '/', body);
      assert s == "" + ['/'] + body;
    }
  }

  lemma {:induction false} ParseRelative(p: Path)
    requires WellFormed(p) && !p.absolute && Normalize(p.parts) == p.parts
    ensures FromString(ToString(p)) == p
  {
    if p.parts == [] {
      SplitNoSeparator(".", '/');
    } else {
      SplitJoin(p.parts, '/');
      JoinStartsWithFirst(p.parts);
    }
  }

  lemma {:induction false} JoinStartsWithFirst(parts: seq<string>)
    requires |parts| >= 1 && IsComponent(parts[0])
    ensures JoinWith(parts, "/") != "" && JoinWith(parts, "/")[0] == parts[0][0]
  {
  }
}

=== FILE: seqs.dfy ===
/** Order-preserving filtering, the `Array.prototype.filter` the frontend
    uses for its search box and its optimistic delete. */
module Seqs {

  /** `a` can be obtained from `b` by deleting elements. */
  predicate IsSubsequence<T(==)>(a: seq<T>, b: seq<T>)
    decreases |b|
  {
    if a == [] then true
    else if b == [] then false
    else if a[0] == b[0] then IsSubsequence(a[1..], b[1..])
    else IsSubsequence(a, b[1..])
  }

  /** How many elements of `s` satisfy `p`. */
  function CountIf<T>(s: seq<T>, p: T -> bool): (n: nat)
    ensures n <= |s|
  {
    if s == [] then 0 else (if p(s[0]) then 1 else 0) + CountIf(s[1..], p)
  }

  /** `s.filter(p)`: the elements of `s` satisfying `p`, in their order. */
  function Keep<T(==)>(s: seq<T>, p: T -> bool): (r: seq<T>)
    ensures IsSubsequence(r, s)
    ensures forall i :: 0 <= i < |r| ==> r[i] in s && p(r[i])
    ensures forall i :: 0 <= i < |s| && p(s[i]) ==> s[i] in r
    ensures |r| == CountIf(s, p)
  {
    if s == [] then []
    else if p(s[0]) then [s[0]] + Keep(s[1..], p)
    else Keep(s[1..], p)
  }

  /** When every element passes, filtering returns the sequence itself. */
  lemma {:induction false} KeepAll<T>(s: seq<T>, p: T -> bool)
    requires forall i :: 0 <= i < |s| ==> p(s[i])
    ensures Keep(s, p) == s
  {
    if s != [] {
      KeepAll(s[1..], p);
      assert [s[0]] + s[1..] == s;
    }
  }

  /** Two filters may be applied in either order. */
  lemma {:induction false} KeepCommutes<T>(s: seq<T>, p: T -> bool, q: T -> bool)
    ensures Keep(Keep(s, p), q) == Keep(Keep(s, q), p)
  {
    if s != [] {
      KeepCommutes(s[1..], p, q);
      if p(s[0]) {
        assert Keep(s, p) == [s[0]] + Keep(s[1..], p);
        assert ([s[0]] + Keep(s[1..], p))[1..] == Keep(s[1..], p);
      }
      if q(s[0]) {
        assert Keep(s, q) == [s[0]] + Keep(s[1..], q);
        assert ([s[0]] + Keep(s[1..], q))[1..] == Keep(s[1..], q);
      }
    }
  }
}

=== FILE: settings.dfy ===
/** `core/config.py`: the backend's settings. The storage directory can be
    overridden from the environment; the directories and the database URL
    derived from it are computed once, from the default, when the class is
    defined. */
module Settings {
  import opened Wrappers
  import opened Text
  import opened Paths

  const ApiV1Prefix: string := "/api/v1"
  const ProjectName: string := "ClasificadorV2"
  const CorsOrigins: seq<string> := ["http://localhost:3000"]
  const MaxFileSize: int := 100 * 1024 * 1024
  const AllowedImageTypes: seq<string> := ["image/jpeg", "image/png", "image/heic"]
  const AllowedVideoTypes: seq<string> := ["video/mp4", "video/quicktime"]
  const ThumbnailSize: (int, int) := (200, 200)

  /** `Path("../storage")`. */
  const DefaultStorageDir: Path := Path(false, ["..", "storage"])

  /** `max(THUMBNAIL_SIZE)`. */
  function MaxThumbnailSide(): (r: int)
    ensures r >= ThumbnailSize.0 && r >= ThumbnailSize.1
    ensures r == ThumbnailSize.0 || r == ThumbnailSize.1
  {
    if ThumbnailSize.0 >= ThumbnailSize.1 then ThumbnailSize.0 else ThumbnailSize.1
  }

  /** The storage-related settings. `processedDir` is `None` when the
      settings object has no `PROCESSED_DIR` attribute, as with the class
      in `core/config.py`. */
  datatype Settings = Settings(
    storageDir: Path,
    uploadsDir: Path,
    thumbnailsDir: Path,
    processedDir: Option<Path>,
    sqliteUrl: string)

  /** `f"sqlite:///{storage}/db.sqlite3"`. */
  function SqliteUrl(storage: Path): (r: string)
    ensures StartsWith(r, "sqlite:///")
  {
    "sqlite:///" + ToString(storage) + "/db.sqlite3"
  }

  /** The database URL names its storage directory: different directories
      give different URLs. */
  lemma SqliteUrlInjective(a: Path, b: Path)
    requires WellFormed(a) && WellFormed(b)
    requires SqliteUrl(a) == SqliteUrl(b)
    ensures a == b
  {
    var sa, sb := SqliteUrl(a), SqliteUrl(b);
    assert sa[10..|sa| - 11] == ToString(a);
    assert sb[10..|sb| - 11] == ToString(b);
    ParseToString(a);
    ParseToString(b);
  }

  /** `Settings()` as written: an override replaces `STORAGE_DIR` alone;
      the derived values keep the default directory. */
  function LoadAsWritten(storageOverride: Option<string>): (r: Settings)
    ensures r.storageDir == EffectiveStorage(storageOverride)
    ensures Parent(r.uploadsDir) == DefaultStorageDir && Name(r.uploadsDir) == "uploads"
    ensures Parent(r.thumbnailsDir) == DefaultStorageDir && Name(r.thumbnailsDir) == "thumbnails"
    ensures r.sqliteUrl == SqliteUrl(DefaultStorageDir) && r.processedDir.None?
    ensures r.(storageDir := DefaultStorageDir) == Load(None)
  {
    var defaults := Layout(DefaultStorageDir, None);
    defaults.(storageDir := EffectiveStorage(storageOverride))
  }

  /** The storage directory after the environment override, if any. */
  function EffectiveStorage(storageOverride: Option<string>): (r: Path)
    ensures WellFormed(r)
  {
    if storageOverride.Some? then FromString(storageOverride.value) else DefaultStorageDir
  }

  /** The directories and URL derived from a storage directory. */
  function Layout(storage: Path, processed: Option<Path>): (r: Settings)
    requires WellFormed(storage)
    ensures r.storageDir == storage
    ensures Parent(r.uploadsDir) == storage && Name(r.uploadsDir) == "uploads"
    ensures Parent(r.thumbnailsDir) == storage && Name(r.thumbnailsDir) == "thumbnails"
  {
    JoinComponent(storage, "uploads");
    JoinComponent(storage, "thumbnails");
    Settings(storage, Join(storage, "uploads"), Join(storage, "thumbnails"), processed, SqliteUrl(storage))
  }

  /** `Settings()` with the derived values following the effective storage
      directory. */
  function Load(storageOverride: Option<string>): (r: Settings)
    ensures Parent(r.uploadsDir) == r.storageDir && Name(r.uploadsDir) == "uploads"
    ensures Parent(r.thumbnailsDir) == r.storageDir && Name(r.thumbnailsDir) == "thumbnails"
    ensures r.sqliteUrl == SqliteUrl(r.storageDir)
  {
    Layout(EffectiveStorage(storageOverride), None)
  }

  /** Without an override the two loaders agree. */
  lemma LoadersAgreeByDefault()
    ensures LoadAsWritten(None) == Load(None)
  {
  }

  /** As written, overriding the storage directory with any other directory
      leaves uploads, thumbnails and the database in the default one. */
  lemma OverrideDetachesLayout(storageOverride: string)
    requires EffectiveStorage(Some(storageOverride)) != DefaultStorageDir
    ensures var s := LoadAsWritten(Some(storageOverride));
            Parent(s.uploadsDir) != s.storageDir && Parent(s.thumbnailsDir) != s.storageDir &&
            s.sqliteUrl != SqliteUrl(s.storageDir)
  {
    var storage := EffectiveStorage(Some(storageOverride));
    var defaults := Layout(DefaultStorageDir, None);
    assert LoadAsWritten(Some(storageOverride)) == defaults.(storageDir := storage);
    if defaults.sqliteUrl == SqliteUrl(storage) {
      SqliteUrlInjective(DefaultStorageDir, storage);
    }
  }
}

=== FILE: setup_environment.dfy ===
/** `fix_storage_paths` and the directory list of `ensure_directories` in
    `scripts/setup_environment.py`, as rewrites of the loaded settings. The
    project directory (two levels above the script) is an input. */
module SetupEnvironment {
  import opened Wrappers
  import opened Paths
  import opened Settings

  /** What `fix_storage_paths` reports and the settings it leaves; `Err`
      is an exception it lets escape. */
  type FixResult = Result<(bool, Option<Settings>), string>

  /** `project_dir / "storage"`. */
  function ProjectStorage(projectDir: Path): Path
    requires WellFormed(projectDir)
  {
    Join(projectDir, "storage")
  }

  /** `fix_storage_paths`: `loaded` is the module's `settings`, or `None`
      when it has none. The current values are printed first, so a settings
      object without `PROCESSED_DIR` raises before anything is changed.
      Paths are compared through their string forms. */
  function FixStoragePaths(loaded: Option<Settings>, projectDir: Path): (r: FixResult)
    requires WellFormed(projectDir)
    ensures loaded.None? ==> r == Ok((false, None))
    ensures loaded.Some? && loaded.value.processedDir.None? ==> r.Err?
    ensures r.Ok? && r.value.1 != loaded ==> r.value.1.Some? && r.value.1.value.storageDir == ProjectStorage(projectDir)
    ensures loaded.Some? && loaded.value.processedDir.Some? ==>
              r.Ok? && r.value.0 && r.value.1.Some? &&
              ToString(r.value.1.value.storageDir) == ToString(ProjectStorage(projectDir))
  {
    match loaded
    case None => Ok((false, None))
    case Some(s) =>
      if s.processedDir.None? then Err("AttributeError: PROCESSED_DIR")
      else if ToString(s.storageDir) == ToString(ProjectStorage(projectDir)) then Ok((true, loaded))
      else
        var storage := ProjectStorage(projectDir);
        Ok((true, Some(Layout(storage, Some(Join(storage, "processed"))))))
  }

  /** After a rewrite every derived value follows the project's storage
      directory, and a second run takes the early return and changes
      nothing. */
  lemma FixThenFixAgain(s: Settings, projectDir: Path)
    requires WellFormed(projectDir) && s.processedDir.Some?
    requires ToString(s.storageDir) != ToString(ProjectStorage(projectDir))
    ensures var once := FixStoragePaths(Some(s), projectDir);
            once.Ok? && once.value.1.Some? &&
            var fixed := once.value.1.value;
            Parent(fixed.uploadsDir) == ProjectStorage(projectDir) && Name(fixed.uploadsDir) == "uploads" &&
            Parent(fixed.thumbnailsDir) == ProjectStorage(projectDir) && Name(fixed.thumbnailsDir) == "thumbnails" &&
            fixed.processedDir.Some? && Parent(fixed.processedDir.value) == ProjectStorage(projectDir) &&
            Name(fixed.processedDir.value) == "processed" &&
            fixed.sqliteUrl == SqliteUrl(ProjectStorage(projectDir)) &&
            FixStoragePaths(once.value.1, projectDir) == once
  {
    var storage := ProjectStorage(projectDir);
    JoinComponent(storage, "processed");
  }

  /** Comparing string forms is comparing paths: the settings come back
      untouched exactly when the storage directory already is the
      project's. */
  lemma AlreadyFixedIffSamePath(s: Settings, projectDir: Path)
    requires WellFormed(projectDir) && WellFormed(s.storageDir) && s.processedDir.Some?
    ensures s.storageDir == ProjectStorage(projectDir) ==> FixStoragePaths(Some(s), projectDir) == Ok((true, Some(s)))
    ensures s.storageDir != ProjectStorage(projectDir) ==>
              FixStoragePaths(Some(s), projectDir).value.1.value.storageDir == ProjectStorage(projectDir)
  {
    var storage := ProjectStorage(projectDir);
    if ToString(s.storageDir) == ToString(storage) {
      ParseToString(s.storageDir);
      ParseToString(storage);
    }
  }

  /** `ensure_directories`' list: storage, its three children and
      `storage/models/opencv_dnn`; `Err` when the settings have no
      `PROCESSED_DIR`. */
  function DirectoriesToCheck(s: Settings): (r: Result<seq<Path>, string>)
    requires WellFormed(s.storageDir)
    ensures s.processedDir.None? <==> r.Err?
    ensures r.Ok? ==> |r.value| == 5 && r.value[0] == s.storageDir && r.value[3] == s.processedDir.value
  {
    if s.processedDir.None? then Err("AttributeError: PROCESSED_DIR")
    else Ok([s.storageDir, s.uploadsDir, s.thumbnailsDir, s.processedDir.value,
             Join(Join(s.storageDir, "models"), "opencv_dnn")])
  }

  /** `ensure_directories`' result: every directory in the list exists or
      could be created; `ready` says which. */
  function EnsureDirectories(loaded: Option<Settings>, ready: Path -> bool): (r: Result<bool, string>)
    requires loaded.Some? ==> WellFormed(loaded.value.storageDir)
    ensures loaded.None? ==> r == Ok(false)
    ensures loaded.Some? && loaded.value.processedDir.None? ==> r.Err?
    ensures loaded.Some? && loaded.value.processedDir.Some? ==>
              var dirs := DirectoriesToCheck(loaded.value).value;
              r.Ok? && (r.value <==> forall i :: 0 <= i < |dirs| ==> ready(dirs[i]))
  {
    match loaded
    case None => Ok(false)
    case Some(s) =>
      match DirectoriesToCheck(s)
      case Err(e) => Err(e)
      case Ok(dirs) => Ok(forall i :: 0 <= i < |dirs| ==> ready(dirs[i]))
  }

  /** After a rewrite the directories checked are the project's storage
      directory, three children of it and a grandchild of it. */
  lemma CheckedDirectoriesUnderProject(s: Settings, projectDir: Path)
    requires WellFormed(projectDir) && s.processedDir.Some?
    requires ToString(s.storageDir) != ToString(ProjectStorage(projectDir))
    ensures var fixed := FixStoragePaths(Some(s), projectDir).value.1.value;
            var dirs := DirectoriesToCheck(fixed).value;
            dirs[0] == ProjectStorage(projectDir) &&
            Parent(dirs[1]) == dirs[0] && Parent(dirs[2]) == dirs[0] && Parent(dirs[3]) == dirs[0] &&
            Parent(Parent(dirs[4])) == dirs[0] && Name(dirs[4]) == "opencv_dnn"
  {
    var storage := ProjectStorage(projectDir);
    assert FixStoragePaths(Some(s), projectDir).value.1.value == Layout(storage, Some(Join(storage, "processed")));
    LayoutDirectories(storage);
  }

  /** The directories checked for a layout derived from `storage`. */
  lemma LayoutDirectories(storage: Path)
    requires WellFormed(storage)
    ensures var dirs := DirectoriesToCheck(Layout(storage, Some(Join(storage, "processed")))).value;
            dirs[0] == storage &&
            Parent(dirs[1]) == storage && Parent(dirs[2]) == storage && Parent(dirs[3]) == storage &&
            Parent(Parent(dirs[4])) == storage && Name(dirs[4]) == "opencv_dnn"
  {
    JoinComponent(storage, "processed");
    ModelsDirectory(storage);
  }

  /** `storage / "models" / "opencv_dnn"` is a grandchild of `storage`. */
  lemma ModelsDirectory(storage: Path)
    requires WellFormed(storage)
    ensures Parent(Parent(Join(Join(storage, "models"), "opencv_dnn"))) == storage
    ensures Name(Join(Join(storage, "models"), "opencv_dnn")) == "opencv_dnn"
  {
    JoinComponent(storage, "models");
    JoinComponent(Join(storage, "models"), "opencv_dnn");
  }
}

=== FILE: text.dfy ===
/** String helpers with the meaning JavaScript and Python give them: case
    folding, substring search, prefix test, decimal rendering of a counter,
    splitting and joining on a separator. */
module Text {

  /** JavaScript's `toLowerCase` on one UTF-16 code unit, for the ASCII and
      Latin-1 letters (`A`-`Z` and `À`-`Þ` except the multiplication sign). */
  function LowerChar(c: char): (r: char)
    ensures IsUpper(c) ==> r as int == c as int + 32
    ensures !IsUpper(c) ==> r == c
    ensures !IsUpper(r)
  {
    if IsUpper(c) then (c as int + 32) as char else c
  }

  predicate IsUpper(c: char) {
    'A' <= c <= 'Z' || ('À' <= c <= 'Þ' && c != '×')
  }

  /** `s.toLowerCase()`, one code unit at a time. */
  function Lower(s: string): (r: string)
    ensures |r| == |s|
    ensures forall i :: 0 <= i < |s| ==> r[i] == LowerChar(s[i])
  {
    seq(|s|, i requires 0 <= i < |s| => LowerChar(s[i]))
  }

  /** Lower-casing twice is lower-casing once. */
  lemma LowerIdempotent(s: string)
    ensures Lower(Lower(s)) == Lower(s)
  {
  }

  /** `hay.includes(needle)`: `needle` occurs at some offset of `hay`. */
  predicate Includes(hay: string, needle: string) {
    exists i | 0 <= i <= |hay| - |needle| :: OccursAt(hay, needle, i)
  }

  /** `needle` is the slice of `hay` starting at offset `i`. */
  predicate OccursAt(hay: string, needle: string, i: int) {
    0 <= i <= |hay| - |needle| && hay[i..i + |needle|] == needle
  }

  lemma EmptyIncluded(hay: string)
    ensures Includes(hay, "")
  {
    assert OccursAt(hay, "", 0);
  }

  /** `s.startswith(prefix)` / `s.startsWith(prefix)`. */
  predicate StartsWith(s: string, prefix: string) {
    |prefix| <= |s| && s[..|prefix|] == prefix
  }

  function DigitChar(d: nat): (c: char)
    requires d < 10
    ensures '0' <= c <= '9'
  {
    ('0' as int + d) as char
  }

  /** Python's `str(n)` and JavaScript's `${n}` for a natural number. */
  function NatToString(n: nat): (r: string)
    ensures |r| >= 1
    ensures forall i :: 0 <= i < |r| ==> '0' <= r[i] <= '9'
  {
    if n < 10 then [DigitChar(n)] else NatToString(n / 10) + [DigitChar(n % 10)]
  }

  /** The value of a string of decimal digits. */
  function ParseDecimal(s: string): nat
    requires forall i :: 0 <= i < |s| ==> '0' <= s[i] <= '9'
  {
    if s == [] then 0 else ParseDecimal(s[..|s| - 1]) * 10 + (s[|s| - 1] as int - '0' as int)
  }

  /** Decimal rendering round-trips through parsing. */
  lemma {:induction false} ParseNatToString(n: nat)
    ensures ParseDecimal(NatToString(n)) == n
  {
    if n >= 10 {
      var s := NatToString(n);
      assert s[..|s| - 1] == NatToString(n / 10);
      ParseNatToString(n / 10);
    }
  }

  /** So two different counters never render to the same digits. */
  lemma NatToStringInjective(m: nat, n: nat)
    requires NatToString(m) == NatToString(n)
    ensures m == n
  {
    ParseNatToString(m);
    ParseNatToString(n);
  }

  /** `sep.join(parts)` / `parts.join(sep)`. */
  function JoinWith(parts: seq<string>, sep: string): string {
    if parts == [] then ""
    else if |parts| == 1 then parts[0]
    else parts[0] + sep + JoinWith(parts[1..], sep)
  }

  /** `s.split(c)`: the pieces between occurrences of `c`; never empty. */
  function Split(s: string, c: char): (r: seq<string>)
    ensures |r| >= 1
    ensures forall k :: 0 <= k < |r| ==> c !in r[k]
    decreases |s|
  {
    if s == [] then [""]
    else
      var rest := Split(s[1..], c);
      if s[0] == c then [""] + rest else [[s[0]] + rest[0]] + rest[1..]
  }

  lemma {:induction false} SplitNoSeparator(s: string, c: char)
    requires c !in s
    ensures Split(s, c) == [s]
    decreases |s|
  {
    if s != [] {
      SplitNoSeparator(s[1..], c);
      assert [s[0]] + s[1..] == s;
    }
  }

  lemma {:induction false} SplitAfterPiece(p: string, c: char, t: string)
    requires c !in p
    ensures Split(p + [c] + t, c) == [p] + Split(t, c)
    decreases |p|
  {
    var s := p + [c] + t;
    if p == [] {
      assert s[1..] == t;
    } else {
      assert s[1..] == p[1..] + [c] + t;
      SplitAfterPiece(p[1..], c, t);
      assert [p[0]] + p[1..] == p;
    }
  }

  /** Splitting undoes joining when no part contains the separator. */
  lemma {:induction false} SplitJoin(parts: seq<string>, c: char)
    requires |parts| >= 1
    requires forall k :: 0 <= k < |parts| ==> c !in parts[k]
    ensures Split(JoinWith(parts, [c]), c) == parts
  {
    if |parts| == 1 {
      SplitNoSeparator(parts[0], c);
    } else {
      SplitJoin(parts[1..], c);
      SplitAfterPiece(parts[0], c, JoinWith(parts[1..], [c]));
      assert [parts[0]] + parts[1..] == parts;
    }
  }
}

=== FILE: translation_service.dfy ===
/** `translateEventType` of `translationService.ts`: the English event
    label the classifier stores is shown in Spanish by a case-insensitive
    table lookup that passes unknown labels through unchanged. */
module TranslationService {
  import opened Wrappers
  import opened Text
  import JsObject

  /** The own entries of `eventTypeTranslations`, all 35 of them, listed
      under the first letter of their key. */
  function Translation(key: string): Option<string> {
    if key == [] then None
    else match key[0]
    case 'a' => (match key case "award" => Some("Premiación") case "anniversary" => Some("Aniversario") case _ => None)
    case 'b' => (match key case "birthday" => Some("Cumpleaños") case "business" => Some("Negocio") case _ => None)
    case 'c' => (match key case "conference" => Some("Conferencia") case "concert" => Some("Concierto") case "ceremony" => Some("Ceremonia") case "convention" => Some("Convención") case "celebration" => Some("Celebración") case "competition" => Some("Competencia") case _ => None)
    case 'd' => (match key case "demonstration" => Some("Manifestación") case _ => None)
    case 'e' => (match key case "exhibition" => Some("Exposición") case _ => None)
    case 'f' => (match key case "family" => Some("Familiar") case "festival" => Some("Festival") case "fair" => Some("Feria") case "fundraising" => Some("Recaudación de fondos") case _ => None)
    case 'g' => (match key case "graduation" => Some("Graduación") case "gathering" => Some("Reunión") case _ => None)
    case 'h' => (match key case "holiday" => Some("Vacaciones") case _ => None)
    case 'i' => (match key case "inauguration" => Some("Inauguración") case _ => None)
    case 'm' => (match key case "meeting" => Some("Reunión") case _ => None)
    case 'o' => (match key case "other" => Some("Otro") case _ => None)
    case 'p' => (match key case "party" => Some("Fiesta") case "performance" => Some("Espectáculo") case "protest" => Some("Protesta") case "parade" => Some("Desfile") case "presentation" => Some("Presentación") case _ => None)
    case 'r' => (match key case "reunion" => Some("Reunión") case "religious" => Some("Religioso") case _ => None)
    case 's' => (match key case "sports" => Some("Deportes") case "seminar" => Some("Seminario") case "show" => Some("Show") case _ => None)
    case 't' => (match key case "travel" => Some("Viaje") case _ => None)
    case 'w' => (match key case "wedding" => Some("Boda") case "workshop" => Some("Taller") case _ => None)
    case _ => None
  }

  /** The label shown for a missing or empty event type. */
  const Unclassified: string := "Sin clasificar"

  /** A label whose lowered form is no key of the table but names a member
      every object literal inherits. */
  predicate ReachesPrototype(eventType: Option<string>) {
    && eventType.Some? && eventType.value != ""
    && Lower(eventType.value) in JsObject.PrototypeMembers
    && Translation(Lower(eventType.value)).None?
  }

  /** `translateEventType` as written: the table is an object literal read
      with `[]`, so a lowered label that names a member of
      `Object.prototype` reads that inherited member, which is truthy and is
      returned in place of a string. */
  function TranslateAsWritten(eventType: Option<string>): (r: JsObject.JsValue)
    ensures ReachesPrototype(eventType) ==> r == JsObject.Inherited(Lower(eventType.value))
    ensures !ReachesPrototype(eventType) ==> r == JsObject.Str(TranslateEventType(eventType))
  {
    if eventType.None? || eventType.value == "" then JsObject.Str(Unclassified)
    else
      var key := Lower(eventType.value);
      var v := JsObject.Get(Translation(key), key);
      if JsObject.Truthy(v) then v else JsObject.Str(eventType.value)
  }

  /** `translateEventType` with the lookup restricted to the table's own
      entries, which is what its `string` result type promises. */
  function TranslateEventType(eventType: Option<string>): (r: string)
    ensures eventType.None? || eventType.value == "" ==> r == Unclassified
    ensures eventType.Some? && eventType.value != "" && Translation(Lower(eventType.value)).Some? ==>
              r == Translation(Lower(eventType.value)).value
    ensures eventType.Some? && eventType.value != "" && Translation(Lower(eventType.value)).None? ==>
              r == eventType.value
  {
    if eventType.None? || eventType.value == "" then Unclassified
    else
      var own := Translation(Lower(eventType.value));
      if own.Some? && own.value != "" then own.value else eventType.value
  }

  /** `"Constructor"` lowers to a member every object literal inherits, so
      the function as written returns the `Object` constructor; `"__proto__"`
      returns `Object.prototype`. */
  lemma PrototypeKeyEscapes()
    ensures TranslateAsWritten(Some("Constructor")) == JsObject.Inherited("constructor")
    ensures TranslateAsWritten(Some("__proto__")) == JsObject.Inherited("__proto__")
  {
    assert Lower("Constructor") == "constructor";
    assert Lower("__proto__") == "__proto__";
  }

  /** Away from the inherited names the two definitions agree. */
  lemma AsWrittenAgrees(eventType: Option<string>)
    requires eventType.Some? ==> Lower(eventType.value) !in JsObject.PrototypeMembers
    ensures TranslateAsWritten(eventType) == JsObject.Str(TranslateEventType(eventType))
  {
  }

  /** The lookup ignores case: a label and its lower-cased form translate
      alike whenever the lower-cased form is a key. */
  lemma CaseInsensitive(s: string)
    requires Translation(Lower(s)).Some?
    ensures TranslateEventType(Some(s)) == TranslateEventType(Some(Lower(s)))
  {
    LowerIdempotent(s);
  }

  /** Examples from the table: `wedding` is `Boda` in any case, `other` is
      `Otro`, and an unknown label comes back as given, not lower-cased. */
  lemma Examples()
    ensures TranslateEventType(Some("wedding")) == "Boda"
    ensures TranslateEventType(Some("WEDDING")) == "Boda"
    ensures TranslateEventType(Some("other")) == "Otro"
    ensures TranslateEventType(Some("Beach Day")) == "Beach Day"
    ensures TranslateEventType(None) == TranslateEventType(Some("")) == Unclassified
  {
    assert Lower("wedding") == "wedding";
    assert Lower("WEDDING") == "wedding";
    assert Lower("other") == "other";
    assert Lower("Beach Day") == "beach day";
  }

  /** Three English labels share one Spanish one, so the table cannot be
      inverted. */
  lemma NotInjective()
    ensures Translation("reunion") == Translation("meeting") == Translation("gathering") == Some("Reunión")
  {
  }

  /** A translation is stable when it is non-empty and, should it lower to
      a key, that key translates back to it. Only `Festival` and `Show` lower
      to keys. */
  predicate Stable(v: string) {
    v != "" && (Translation(Lower(v)).None? || Translation(Lower(v)).value == v)
  }

  lemma StableValues1()
    ensures Stable("Boda")
    ensures Stable("Conferencia")
    ensures Stable("Deportes")
    ensures Stable("Concierto")
    ensures Stable("Fiesta")
  {
    assert Lower("Boda") == "boda";
    assert Lower("Conferencia") == "conferencia";
    assert Lower("Deportes") == "deportes";
    assert Lower("Concierto") == "concierto";
    assert Lower("Fiesta") == "fiesta";
  }

  lemma StableValues2()
    ensures Stable("Reunión")
    ensures Stable("Viaje")
    ensures Stable("Cumpleaños")
    ensures Stable("Graduación")
    ensures Stable("Familiar")
  {
    assert Lower("Reunión") == "reunión";
    assert Lower("Viaje") == "viaje";
    assert Lower("Cumpleaños") == "cumpleaños";
    assert Lower("Graduación") == "graduación";
    assert Lower("Familiar") == "familiar";
  }

  lemma StableValues3()
    ensures Stable("Negocio")
    ensures Stable("Religioso")
    ensures Stable("Vacaciones")
    ensures Stable("Exposición")
    ensures Stable("Festival")
  {
    assert Lower("Negocio") == "negocio";
    assert Lower("Religioso") == "religioso";
    assert Lower("Vacaciones") == "vacaciones";
    assert Lower("Exposición") == "exposición";
    assert Lower("Festival") == "festival";
  }

  lemma StableValues4()
    ensures Stable("Espectáculo")
    ensures Stable("Ceremonia")
    ensures Stable("Protesta")
    ensures Stable("Desfile")
    ensures Stable("Feria")
  {
    assert Lower("Espectáculo") == "espectáculo";
    assert Lower("Ceremonia") == "ceremonia";
    assert Lower("Protesta") == "protesta";
    assert Lower("Desfile") == "desfile";
    assert Lower("Feria") == "feria";
  }

  lemma StableValues5()
    ensures Stable("Seminario")
    ensures Stable("Taller")
    ensures Stable("Premiación")
    ensures Stable("Convención")
    ensures Stable("Celebración")
  {
    assert Lower("Seminario") == "seminario";
    assert Lower("Taller") == "taller";
    assert Lower("Premiación") == "premiación";
    assert Lower("Convención") == "convención";
    assert Lower("Celebración") == "celebración";
  }

  lemma StableValues6()
    ensures Stable("Competencia")
    ensures Stable("Show")
    ensures Stable("Presentación")
    ensures Stable("Inauguración")
    ensures Stable("Aniversario")
  {
    assert Lower("Competencia") == "competencia";
    assert Lower("Show") == "show";
    assert Lower("Presentación") == "presentación";
    assert Lower("Inauguración") == "inauguración";
    assert Lower("Aniversario") == "aniversario";
  }

  lemma StableValues7()
    ensures Stable("Recaudación de fondos")
    ensures Stable("Manifestación")
    ensures Stable("Otro")
  {
    assert Lower("Recaudación de fondos") == "recaudación de fondos";
    assert Lower("Manifestación") == "manifestación";
    assert Lower("Otro") == "otro";
  }

  /** Every translation in the table is stable. */
  lemma TranslationsStable(key: string)
    requires Translation(key).Some?
    ensures Stable(Translation(key).value)
  {
    StableValues1();
    StableValues2();
    StableValues3();
    StableValues4();
    StableValues5();
    StableValues6();
    StableValues7();
  }

  /** Translating a translation changes nothing. */
  lemma TranslateIdempotent(eventType: Option<string>)
    ensures TranslateEventType(Some(TranslateEventType(eventType))) == TranslateEventType(eventType)
  {
    assert Lower(Unclassified) == "sin clasificar";
    if eventType.Some? && eventType.value != "" && Translation(Lower(eventType.value)).Some? {
      TranslationsStable(Lower(eventType.value));
    }
  }
}

=== FILE: wrappers.dfy ===
/** Failure-carrying values shared by every module of the model: an optional
    value (Python's `None`, JavaScript's `null`/`undefined`) and a result that
    is either a value or an error. */
module Wrappers {

  datatype Option<+T> = None | Some(value: T) {
    function GetOr(default: T): T {
      match this
      case Some(v) => v
      case None => default
    }
  }

  datatype Result<+T, +E> = Ok(value: T) | Err(error: E)
}
